=== FILE: README.md ===
# Icon sprite plugin — a Dafny model

This project models `IconSpritePlugin` (index.ts), a Vite plugin that collects the
`.svg` icons under a configured directory into one sprite document,
`icon-sprite.svg`. Each icon's root `<svg>` element becomes a `<symbol>` carrying
an id derived from the icon's relative path. The plugin regenerates the sprite at
build start and whenever an icon changes on the dev server. The model covers
everything that is not I/O:

- the configuration checks (`validateDirectories`, `ensureDirectoriesExist`);
- the recursive scan `getSvgFiles` over a directory tree given as data;
- the id derivation of line 43;
- the five text rewrites of lines 61-66, each with JavaScript's exact
  `String.prototype.replace` semantics (first occurrence for a string pattern,
  `$` patterns in the replacement, leftmost-then-greedy backtracking for the two
  size regular expressions);
- the assembly of the sprite document, and the whole generation pass over an
  input environment;
- the change filter of the dev-server watcher.

Modules:

| file | module | what |
|---|---|---|
| text.dfy | `Text` | JavaScript string operations: `includes`, `endsWith`, `indexOf`, `replace`, a global character replace, and a separator join standing in for `path.join` |
| settings.dfy | `Settings` | the error kinds and the two directory checks |
| icon_ids.dfy | `IconIds` | line 43, as written and as intended |
| scanner.dfy | `Scanner` | `getSvgFiles` over an `Entry` tree, plus a reference pre-order walk |
| id_attributes.dfy | `IdAttributes` | line 62, the global `id="…"` removal |
| size_attributes.dfy | `SizeAttributes` | lines 63-64, the `width`/`height` regular expressions, as written and as intended |
| symbols.dfy | `Symbols` | lines 65-66, the `<symbol>` open and close |
| fragment.dfy | `Fragment` | the chain of lines 61-66 |
| sprite.dfy | `Sprite` | lines 50-74: reading, assembly and the whole pass (a function and the looping method) |
| watcher.dfy | `Watcher` | the change filter of line 88 |

The filesystem is an input. A directory is a `Scanner.Entry` tree, and listing
order is `readdir` order. File contents are a map from path to text. Whether each
directory exists is a flag. The working directory and the path separator are
parameters. `path.join` is modelled as joining segments with the separator.
`path.relative(base, full)` is the join of the segments below the base. Both
assume segment names without separators or `.`/`..` components.

The model keeps these details of the code:

- the `.svg` test is case-sensitive, in both the scan and the watcher;
- ids get no sanitisation beyond `\` → `_`, so on POSIX `nested/close.svg` gets
  the id `nested/close`, not `nested_close`;
- the first unreadable file aborts the whole pass; no per-file recovery;
- a tree without icons still writes the bare wrapper `Header + Footer`;
- changes are not debounced, no reload is requested, and there is no optimiser
  step;
- a missing icons directory is reported by `ensureDirectoriesExist` and names
  the configured setting;
- an id holding `</svg>` (a directory `a<` with an icon `svg>.svg`) has that
  text renamed by line 66 instead of the icon's closing tag;
- `<svg width="24" height="24">` keeps its `height` under the code as written,
  because the attribute is the last in the tag (see Findings).

## Model

| member | source | states |
|---|---|---|
| Settings.ValidateDirectories | index.ts:26-30 | the check fails exactly when the icons directory or the output directory setting is empty, and the failure is the missing-directories error |
| Settings.Message | index.ts:16 | the missing-source error names the configured icons directory and ends in ` does not exist` |
| Settings.EnsureDirectories | index.ts:12-25 | fails exactly when the icons directory is missing, with an error naming the configured setting; otherwise reports that the output directory is created exactly when it did not exist |
| Text.JsReplaceLiteral | index.ts:65-66 | `replace` with a string pattern and a `$`-free template replaces exactly the first occurrence by the template text |
| Text.JsReplaceAt | index.ts:43 | `replace` with a string pattern keeps the text before and after the first occurrence and puts the expanded template in its place |
| Text.ReplaceAllChar | index.ts:43 | the global single-character replace keeps the length and maps each position independently: the `from` character becomes `to`, every other character is kept |
| IconIds.NormalizeSeparators | index.ts:43 | the backslash-to-underscore step keeps the length, leaves no backslash, and changes no other character |
| IconIds.DeriveIdAsWritten | index.ts:43 | the id as written has no backslash; a path without `.svg` only has its backslashes mapped |
| IconIds.Derive | index.ts:43 | under the code as written the id has no backslash and a path without `.svg` only has its backslashes mapped; under the corrected reading a path ending in `.svg` loses exactly four characters |
| IconIds.DeriveId | index.ts:43 | the corrected id has no backslash and is four characters shorter than a path ending in `.svg` (same length otherwise) |
| IconIds.DeriveIdAsWrittenAt | index.ts:43 | for every path, with `i` the first occurrence of `.svg`, the id as written is the path with the four characters at `i` removed and `\` mapped to `_` |
| IconIds.AsWrittenAgreesOnPlainNames | index.ts:43 | when `.svg` occurs in the path only as its suffix, the code as written and the corrected derivation agree: the path minus its last four characters with `\` mapped to `_` |
| IconIds.DirectoryNamedLikeIconKeepsExtension | index.ts:43 | counterexample: `v1.svg/a.svg` gets the id `v1/a.svg` as written, where `v1.svg/a` is intended |
| IconIds.DeriveIdRoundTrip | index.ts:43 | corrected derivation only: for a POSIX relative path ending in `.svg`, appending `.svg` to the id gives the path back |
| IconIds.DeriveIdInjective | index.ts:43 | corrected derivation only: distinct POSIX icon paths get distinct ids |
| IconIds.AsWrittenIdsCollide | index.ts:43 | counterexample: as written, the distinct POSIX paths `x.svg/a.svg` and `x/a.svg.svg` both get the id `x/a.svg` |
| IconIds.WindowsIdsCanCollide | index.ts:43 | on backslash paths two icons can share an id, under the code as written and under the corrected derivation alike: `a\b.svg` and `a_b.svg` both give `a_b` |
| Scanner.ScanIsIconsOfWalk | index.ts:31-48 | the scan emits exactly the regular files whose names end in `.svg`, in depth-first pre-order: the reference walk of the tree, with everything else filtered out |
| Scanner.ScanEntryIsIconsOfWalk | index.ts:39-45 | one entry contributes its own record if it is an icon, a directory contributes its subtree's records, anything else contributes nothing |
| Scanner.ScanAppend | index.ts:35-46 | scanning consecutive runs of a listing concatenates their results |
| Scanner.DirectorySpliced | index.ts:39-41 | a subdirectory's results are spliced in contiguously at the directory's position, with its name added to the relative path |
| Scanner.ScanLength | index.ts:31-48 | the scan emits one record per icon in the tree |
| Scanner.ScanEntryLength | index.ts:39-45 | one entry contributes as many records as it holds icons |
| Scanner.RecordsAreIcons | index.ts:36-44 | every emitted file path ends in `.svg`, and no emitted id contains a backslash |
| IdAttributes.IdMatchLength | index.ts:62 | a match of `id="[^"]+"` at the head of the text is found exactly when one exists, with its length |
| IdAttributes.StripIds | index.ts:62 | the global `id` removal never lengthens the markup |
| IdAttributes.StripIdsIdentity | index.ts:62 | markup without `id="` is unchanged |
| IdAttributes.StripIdsKeepsOther | index.ts:62 | a character that cannot start `id="` is kept and the scan moves past it |
| IdAttributes.StripIdsDeletesAttribute | index.ts:62 | `id="v"` with a non-empty quote-free value is deleted entirely and the rest is processed as if it were absent |
| IdAttributes.StripIdsKeepsPrefix | index.ts:62 | text without the letter `i` is kept as it is ahead of the processed rest |
| IdAttributes.StripIdsKeepsEmptyId | index.ts:62 | `id=""` (empty value) is kept in full |
| SizeAttributes.Closing | index.ts:63-64 | given the attribute's position, finds the value's closing quote and the tag's `>`, the first of each, with group 2 at least as long as the pattern demands; reports nothing only when no quote and `>` after the attribute complete the tail `[^"]*"(G2)>` |
| SizeAttributes.LargestIsLargest | index.ts:63-64 | backtracking from the top of a range returns a value with nothing larger in the range satisfying the test |
| SizeAttributes.LargestNone | index.ts:63-64 | backtracking fails only when no value in the range satisfies the test |
| SizeAttributes.LongestGroupOne | index.ts:63-64 | a group 1 end that backtracking returns lies within the bound and lets the pattern match |
| SizeAttributes.LongestGroupOneIsLongest | index.ts:63-64 | no longer group 1 within the bound lets the pattern match at that start |
| SizeAttributes.LongestGroupOneNone | index.ts:63-64 | backtracking fails only when no group 1 within the bound lets the pattern match at that start |
| SizeAttributes.SearchFrom | index.ts:63-64 | a match the search reports starts no earlier than where the search began and is a real match |
| SizeAttributes.SearchFromIsChosen | index.ts:63-64 | the reported match has the leftmost start and, at that start, the longest group 1 |
| SizeAttributes.SearchFromNone | index.ts:63-64 | the search reports no match only when the pattern matches at no start |
| SizeAttributes.StripAttr | index.ts:63-64 | the single `replace` leaves the markup unchanged when the pattern matches nowhere or the attribute text is absent, and never lengthens it |
| SizeAttributes.ReplaceMatch | index.ts:63-64 | putting `<svg`, group 1, group 2 and `>` in place of a match cuts out exactly `NAME="value"` and nothing else |
| SizeAttributes.StripAttrCutsChosen | index.ts:63-64 | when the pattern matches, the `replace` cuts out exactly the attribute text of the leftmost, longest match |
| SizeAttributes.ChosenUnique | index.ts:63-64 | a regular-expression match (leftmost start, longest group 1) is unique |
| SizeAttributes.AsWrittenMissesLastAttribute | index.ts:63-64 | as written, an attribute directly followed by the tag's `>` is never a match, because group 2 needs a character |
| SizeAttributes.LastAttributeSurvivesAsWritten | index.ts:63 | counterexample: `<svg width="1">` is unchanged by line 63 |
| SizeAttributes.LastAttributeStrippedIntended | index.ts:63 | the corrected pattern turns `<svg width="1">` into `<svg >` |
| SizeAttributes.StrokeWidthHitAsWritten | index.ts:63 | counterexample: in `<svg width="1" stroke-width="2" >` line 63 cuts `width="2"` out of `stroke-width` and keeps the real width |
| SizeAttributes.StrokeWidthKeptIntended | index.ts:63 | the corrected pattern removes `width="1"` and keeps `stroke-width="2"` |
| Symbols.OpenSymbolAsWritten | index.ts:65 | as written, markup without `<svg` is unchanged, and for an id without `$` the result is the literal replacement |
| Symbols.OpenSymbol | index.ts:65 | the first `<svg` is replaced by `<symbol id="ID"` with the id taken literally; the text before and after is unchanged; markup without `<svg` is unchanged |
| Symbols.CloseSymbol | index.ts:66 | the first `</svg>` is replaced by `</symbol>`; the text before and after is unchanged; markup without `</svg>` is unchanged |
| Symbols.DollarIdExpandedAsWritten | index.ts:65 | counterexample: the id `$&` on `<svg/>` gives `<symbol id="<svg"/>` as written and `<symbol id="$&"/>` corrected |
| Fragment.RewriteAsWritten | index.ts:61-66 | the chain as written leaves markup holding none of `id="`, `width="`, `height="`, `<svg`, `</svg>` unchanged |
| Fragment.RewriteAsWrittenLength | index.ts:61-66 | for an id without `$`, the chain as written lengthens the markup by at most the symbol tag's and the closing tag's extra length |
| Fragment.RewritePlainIconAsWritten | index.ts:61-66 | for an id containing neither `$` nor `</svg>`, the chain as written turns an icon `<svg…</svg>` without ids or size attributes into `<symbol id="ID"…</symbol>`, with everything in between kept |
| Fragment.RewriteLength | index.ts:61-66 | the corrected chain lengthens the markup by at most the symbol tag's and the closing tag's extra length |
| Fragment.RewriteIdentity | index.ts:61-66 | under the corrected chain, markup holding none of `id="`, `width="`, `height="`, `<svg`, `</svg>` passes through unchanged |
| Fragment.AsWrittenAgreesWithoutSizes | index.ts:61-66 | with no size attribute left after the id removal and no `$` in the id, the chain as written equals the corrected chain |
| Fragment.RewritePlainIcon | index.ts:61-66 | under the corrected chain, for an id not containing `</svg>`, an icon `<svg…</svg>` without ids or size attributes becomes `<symbol id="ID"…</symbol>`, with everything in between kept |
| Fragment.SvgCloseInIdAsWritten | index.ts:43-66 | counterexample: the path `a</svg>.svg` gets the id `a</svg>`, and line 66 then renames that `</svg>` inside the id attribute, leaving the icon's closing tag `</svg>` |
| Sprite.Assemble | index.ts:71 | the sprite starts with the invisible wrapper's opening tag and ends with `</svg>` |
| Sprite.SymbolBlockIsLines | index.ts:56-69 | accumulating `fragment + "\n"` in a loop equals the reference rendering: each fragment on its own line, in order |
| Sprite.SymbolBlockAppend | index.ts:56-69 | the accumulated text of two runs of fragments is the concatenation of their texts |
| Sprite.FragmentInPlace | index.ts:56-69 | fragment `i` appears whole, followed by a newline, between the text of the fragments before it and the text of those after it |
| Sprite.BodyOfAssemble | index.ts:71 | the text between the sprite's header and footer is exactly the accumulated symbols |
| Sprite.EmptySprite | index.ts:71 | without fragments the sprite is the header followed by the footer |
| Sprite.FragmentsOk | index.ts:58-66 | reading succeeds exactly when every scanned file is readable; it then yields one rewritten fragment per file, in scan order |
| Sprite.FragmentsErr | index.ts:58-59 | a failed read reports the first unreadable file |
| Sprite.GenerateIconSprite | index.ts:50-74 | the source's loop computes the same result as the pass defined as a function, on every path, including the early returns |
| Sprite.Generate | index.ts:50-72 | the plugin's pass (ids and rewrite as written) succeeds exactly when the settings are non-empty, the icons directory exists and every icon is readable; it then writes the wrapped sprite to `cwd/outDir/icon-sprite.svg` |
| Sprite.GenerateCorrected | index.ts:50-72 | the same for the pass with the corrected id derivation and rewrite |
| Sprite.PassRejectsMissingDirectories | index.ts:50-51 | the pass fails with the configuration error exactly when a directory setting is empty, whatever the filesystem holds |
| Sprite.PassNeedsSource | index.ts:50-54 | with valid settings, the pass reports a missing source exactly when the icons directory does not exist |
| Sprite.PassWithoutIcons | index.ts:55-72 | a tree without icons still yields a sprite, the bare wrapper |
| Sprite.PassSucceeds | index.ts:50-72 | for either reading of line 43 and any rewrite: with valid settings and an existing source, the pass succeeds exactly when every icon is readable. The sprite then holds one fragment per icon, in scan order, each the rewrite of the icon's contents with the id the scan derived, and is written to `cwd/outDir/icon-sprite.svg`; the created flag says whether the output directory was missing |
| Watcher.ShouldRegenerate | index.ts:88 | only a path ending in `.svg` triggers a pass, and a path ending in `icon-sprite.svg` never does |
| Watcher.SpriteWriteIgnored | index.ts:72-88 | writing `icon-sprite.svg` never triggers another pass |
| Watcher.LookalikeIgnored | index.ts:88 | a path that merely contains the sprite's name (`my-icon-sprite.svg`) is ignored too |
| Watcher.RegenerateOnSegments | index.ts:88 | for a path of segments joined by `/` or `\`, a pass is triggered exactly when the last segment ends in `.svg` and no segment contains `icon-sprite.svg` |
| Watcher.IconChangesRegenerate | index.ts:42-88 | a change to any icon the scan finds triggers a pass exactly when its path does not contain `icon-sprite.svg` |

## Left out

- File I/O (`fs.access`, `fs.mkdir`, `fs.readdir`, `fs.readFile`, `fs.writeFile`) is replaced by the `Sprite.Env` input. The sprite is returned as a `Sprite.Written` value instead of being written. Failures of `mkdir` and `writeFile` are not modelled.
- `process.cwd()` and the platform's separator are parameters.
- `path.join` and `path.relative` are a plain separator join. Normalisation of `.`/`..`, duplicate separators and absolute settings is not modelled.
- `async`/`await` ordering is not modelled; the pass is sequential, as the source's awaits make it.
- The watcher registration (`server.watcher.add` with the `**/*.svg` glob, line 85) and the `change` subscription are not modelled. Only the filter of line 88 and the pass it triggers are.
- `buildStart` (lines 79-81) only calls the pass and is not modelled separately. Unhandled-rejection behaviour in either hook is not modelled.
- `console.log` output is left out.
- The thrown error's text for a failed read comes from the runtime and is not modelled; `Settings.ReadFailed` carries the path.
- A JavaScript `undefined`/`null` setting (also falsy) is not representable; settings are strings, and only the empty string is falsy.
- Strings are sequences of characters. JavaScript's UTF-16 code units and `readFile`'s UTF-8 decoding are not modelled.
- `\s` in the corrected size pattern is read as space, tab, line feed or carriage return. The rarer Unicode white-space characters are not modelled.
- Sprite.GenerateIconSprite: takes the id derivation and the markup rewrite as parameters. The plugin's pass `Sprite.Generate` uses line 43 as written and `Fragment.RewriteAsWritten`. All pass lemmas hold for both derivations and every rewrite.
- Fragment.RewriteAsWrittenLength: holds only for ids without `$`. As written, an id holding `` $` `` or `$'` copies markup into the tag (see Findings), so no bound in terms of the id's length holds.
- Fragment.RewritePlainIcon: holds only for ids that do not contain `</svg>`. With such an id, line 66 renames the `</svg>` inside the id attribute instead of the icon's closing tag (`Fragment.SvgCloseInIdAsWritten`).
- Fragment.RewritePlainIconAsWritten: holds only for ids without `$` (see `Fragment.RewriteAsWrittenLength`) and without `</svg>` (as for `Fragment.RewritePlainIcon`).
- A failing `readdir` (the icons setting names a file, or a subdirectory cannot be read, line 32) is not modelled. The scan is total over the input tree.
- When a later step fails, the output directory created at line 22 stays created. An `Err` result of the model does not carry that effect; only a successful pass reports it in `Sprite.Written`.

## Findings

| source | as written | input that shows it | evidently intended | confidence | as-written member | corrected member |
|---|---|---|---|---|---|---|
| index.ts:63-64 | `<svg([^>]+)width="[^"]*"([^>]+)>`: group 2 must be non-empty, so an attribute written last in the tag is never removed | `<svg width="1">` stays unchanged | remove the attribute wherever it stands in the tag (`([^>]*)>`) | high, not executed | SizeAttributes.LastAttributeSurvivesAsWritten | SizeAttributes.LastAttributeStrippedIntended |
| index.ts:63-64 | group 1 is greedy and needs no boundary before `width`, so the last `…width="` in the tag is taken, even inside `stroke-width` | `<svg width="1" stroke-width="2" >` becomes `<svg width="1" stroke- >` | remove only the attribute named exactly `width` (`([^>]*\s)width=`) | high, not executed | SizeAttributes.StrokeWidthHitAsWritten | SizeAttributes.StrokeWidthKeptIntended |
| index.ts:65 | the id is spliced into a replacement template, so `$&`, `$$`, `` $` `` and `$'` in a file name are expanded | id `$&` on `<svg/>` gives `<symbol id="<svg"/>` | insert the id literally | medium (needs `$` in a file name), not executed | Symbols.DollarIdExpandedAsWritten | Symbols.OpenSymbol |
| index.ts:43 | `replace('.svg', '')` removes the first `.svg` anywhere in the relative path, not the extension | `v1.svg/a.svg` gets the id `v1/a.svg` | remove the trailing extension only | medium (needs a directory name containing `.svg`), not executed | IconIds.DirectoryNamedLikeIconKeepsExtension | IconIds.DeriveId |
| index.ts:43 | the same removal lets two distinct POSIX icon paths share an id, so two symbols get the same `id` | `x.svg/a.svg` and `x/a.svg.svg` both get `x/a.svg` | distinct POSIX paths get distinct ids | medium (needs a name containing `.svg` twice), not executed | IconIds.AsWrittenIdsCollide | IconIds.DeriveIdInjective |

Both readings run through the same pass:

- `Sprite.Generate` is the plugin as written. Its scan derives ids with `IconIds.DeriveIdAsWritten`, and it rewrites markup with `Fragment.RewriteAsWritten`.
- `Sprite.GenerateCorrected` uses the corrected members. Its scan derives ids with `IconIds.DeriveId`, and `Fragment.Rewrite` uses the `SizeAttributes.Intended` patterns and `Symbols.OpenSymbol`.
- `Scanner.Place` carries the reading of line 43 that a scan applies.

=== FILE: fragment.dfy ===
/** The whole rewrite chain applied to one icon's markup (index.ts lines
    61-66): drop `id` attributes, drop the root's `width` and `height`, open
    a `<symbol>` with the icon's id, close it. */
module Fragment {
  import opened Text
  import IdAttributes
  import SizeAttributes
  import Symbols
  import IconIds

  /** Markup holding none of the constructs the chain rewrites. */
  predicate HasNoTargets(content: string) {
    && !Contains(content, IdAttributes.IdOpen)
    && !Contains(content, "width=\"") && !Contains(content, "height=\"")
    && !Contains(content, SizeAttributes.SvgOpen) && !Contains(content, Symbols.SvgClose)
  }

  /** The chain exactly as lines 61-66 write it, which the plugin runs. */
  function RewriteAsWritten(content: string, id: string): (r: string)
    ensures HasNoTargets(content) ==> r == content
  {
    assert HasNoTargets(content) ==> IdAttributes.StripIds(content) == content by {
      if HasNoTargets(content) {
        IdAttributes.StripIdsIdentity(content);
      }
    }
    assert SizeAttributes.Attr(SizeAttributes.AsWritten("width")) == "width=\"";
    assert SizeAttributes.Attr(SizeAttributes.AsWritten("height")) == "height=\"";
    var noIds := IdAttributes.StripIds(content);
    var noWidth := SizeAttributes.StripAttr(noIds, SizeAttributes.AsWritten("width"));
    var noHeight := SizeAttributes.StripAttr(noWidth, SizeAttributes.AsWritten("height"));
    Symbols.CloseSymbol(Symbols.OpenSymbolAsWritten(noHeight, id))
  }

  /** The chain with the corrected size patterns and the literal id. */
  function Rewrite(content: string, id: string): string {
    var noIds := IdAttributes.StripIds(content);
    var noWidth := SizeAttributes.StripAttr(noIds, SizeAttributes.Intended("width"));
    var noHeight := SizeAttributes.StripAttr(noWidth, SizeAttributes.Intended("height"));
    Symbols.CloseSymbol(Symbols.OpenSymbol(noHeight, id))
  }

  /** The chain never grows markup by more than the symbol tag and the
      longer closing tag add. */
  lemma RewriteLength(content: string, id: string)
    ensures |Rewrite(content, id)|
         <= |content| + |Symbols.SymbolTag(id)| - |SizeAttributes.SvgOpen|
            + |Symbols.SymbolClose| - |Symbols.SvgClose|
  {
    var noIds := IdAttributes.StripIds(content);
    var noWidth := SizeAttributes.StripAttr(noIds, SizeAttributes.Intended("width"));
    var noHeight := SizeAttributes.StripAttr(noWidth, SizeAttributes.Intended("height"));
    OpenSymbolLength(noHeight, id);
    CloseSymbolLength(Symbols.OpenSymbol(noHeight, id));
  }

  /** The same bound for the chain as written, for ids without `$`. */
  lemma RewriteAsWrittenLength(content: string, id: string)
    requires '$' !in id
    ensures |RewriteAsWritten(content, id)|
         <= |content| + |Symbols.SymbolTag(id)| - |SizeAttributes.SvgOpen|
            + |Symbols.SymbolClose| - |Symbols.SvgClose|
  {
    var noIds := IdAttributes.StripIds(content);
    var noWidth := SizeAttributes.StripAttr(noIds, SizeAttributes.AsWritten("width"));
    var noHeight := SizeAttributes.StripAttr(noWidth, SizeAttributes.AsWritten("height"));
    OpenSymbolLength(noHeight, id);
    CloseSymbolLength(Symbols.OpenSymbol(noHeight, id));
  }

  lemma OpenSymbolLength(s: string, id: string)
    ensures |Symbols.OpenSymbol(s, id)| <= |s| + |Symbols.SymbolTag(id)| - |SizeAttributes.SvgOpen|
  {
    match IndexOf(s, SizeAttributes.SvgOpen)
    case None =>
    case Some(i) =>
  }

  lemma CloseSymbolLength(s: string)
    ensures |Symbols.CloseSymbol(s)| <= |s| + |Symbols.SymbolClose| - |Symbols.SvgClose|
  {
    match IndexOf(s, Symbols.SvgClose)
    case None =>
    case Some(i) =>
  }

  /** Markup with none of the rewritten constructs passes through unchanged. */
  lemma RewriteIdentity(content: string, id: string)
    requires HasNoTargets(content)
    ensures Rewrite(content, id) == content
  {
    IdAttributes.StripIdsIdentity(content);
    assert SizeAttributes.Attr(SizeAttributes.Intended("width")) == "width=\"";
    assert SizeAttributes.Attr(SizeAttributes.Intended("height")) == "height=\"";
  }

  /** When the markup (once ids are gone) has no size attribute and the id
      has no `$`, the chain as written and the corrected chain agree. */
  lemma AsWrittenAgreesWithoutSizes(content: string, id: string)
    requires !Contains(IdAttributes.StripIds(content), "width=\"")
    requires !Contains(IdAttributes.StripIds(content), "height=\"")
    requires '$' !in id
    ensures RewriteAsWritten(content, id) == Rewrite(content, id)
  {
    assert SizeAttributes.Attr(SizeAttributes.AsWritten("width")) == "width=\"";
    assert SizeAttributes.Attr(SizeAttributes.AsWritten("height")) == "height=\"";
    assert SizeAttributes.Attr(SizeAttributes.Intended("width")) == "width=\"";
    assert SizeAttributes.Attr(SizeAttributes.Intended("height")) == "height=\"";
  }

  /** An icon `<svg…>…</svg>` without ids or size attributes becomes
      `<symbol id="ID"…>…</symbol>`: the root's opening and closing tags are
      renamed and everything between them is kept. */
  lemma RewritePlainIcon(rest: string, id: string)
    requires !Contains(SizeAttributes.SvgOpen + rest + Symbols.SvgClose, IdAttributes.IdOpen)
    requires !Contains(SizeAttributes.SvgOpen + rest + Symbols.SvgClose, "width=\"")
    requires !Contains(SizeAttributes.SvgOpen + rest + Symbols.SvgClose, "height=\"")
    requires !Contains(rest, Symbols.SvgClose)
    requires !Contains(id, Symbols.SvgClose)
    ensures Rewrite(SizeAttributes.SvgOpen + rest + Symbols.SvgClose, id)
         == Symbols.SymbolTag(id) + rest + Symbols.SymbolClose
  {
    var content := SizeAttributes.SvgOpen + rest + Symbols.SvgClose;
    var tag := Symbols.SymbolTag(id);
    calc {
      Rewrite(content, id);
      { IdAttributes.StripIdsIdentity(content);
        SizesAbsent(content); }
      Symbols.CloseSymbol(Symbols.OpenSymbol(content, id));
      { OpenPlainIcon(rest, id); }
      Symbols.CloseSymbol((tag + rest) + Symbols.SvgClose);
      { ClosePlainIcon(tag, rest, id); }
      tag + rest + Symbols.SymbolClose;
    }
  }

  /** The plugin's chain turns the same plain icon into the same symbol
      when the id has no `$`. */
  lemma RewritePlainIconAsWritten(rest: string, id: string)
    requires !Contains(SizeAttributes.SvgOpen + rest + Symbols.SvgClose, IdAttributes.IdOpen)
    requires !Contains(SizeAttributes.SvgOpen + rest + Symbols.SvgClose, "width=\"")
    requires !Contains(SizeAttributes.SvgOpen + rest + Symbols.SvgClose, "height=\"")
    requires !Contains(rest, Symbols.SvgClose)
    requires !Contains(id, Symbols.SvgClose) && '$' !in id
    ensures RewriteAsWritten(SizeAttributes.SvgOpen + rest + Symbols.SvgClose, id)
         == Symbols.SymbolTag(id) + rest + Symbols.SymbolClose
  {
    var content := SizeAttributes.SvgOpen + rest + Symbols.SvgClose;
    IdAttributes.StripIdsIdentity(content);
    AsWrittenAgreesWithoutSizes(content, id);
    RewritePlainIcon(rest, id);
  }

  /** An id holding `</svg>`, as written: the path `a</svg>.svg` (a
      directory `a<` holding `svg>.svg`) gets the id `a</svg>`, and line 66
      then renames the `</svg>` inside the id attribute, so the icon's own
      closing tag stays `</svg>`. */
  lemma SvgCloseInIdAsWritten(p: string, rest: string)
    requires p == "a</svg>.svg"
    requires !Contains(SizeAttributes.SvgOpen + rest + Symbols.SvgClose, IdAttributes.IdOpen)
    requires !Contains(SizeAttributes.SvgOpen + rest + Symbols.SvgClose, "width=\"")
    requires !Contains(SizeAttributes.SvgOpen + rest + Symbols.SvgClose, "height=\"")
    ensures IconIds.DeriveIdAsWritten(p) == "a</svg>"
    ensures RewriteAsWritten(SizeAttributes.SvgOpen + rest + Symbols.SvgClose, IconIds.DeriveIdAsWritten(p))
         == "<symbol id=\"a</symbol>\"" + rest + Symbols.SvgClose
  {
    var id := "a</svg>";
    IdOfClosingTagPath(p);
    var content := SizeAttributes.SvgOpen + rest + Symbols.SvgClose;
    var tag := Symbols.SymbolTag(id);
    assert '$' !in id;
    IdAttributes.StripIdsIdentity(content);
    calc {
      RewriteAsWritten(content, id);
      { AsWrittenAgreesWithoutSizes(content, id); }
      Rewrite(content, id);
      { SizesAbsent(content); }
      Symbols.CloseSymbol(Symbols.OpenSymbol(content, id));
      { OpenPlainIcon(rest, id); }
      Symbols.CloseSymbol((tag + rest) + Symbols.SvgClose);
      { CloseInsideId(tag, rest); }
      "<symbol id=\"a</symbol>\"" + rest + Symbols.SvgClose;
    }
  }

  lemma IdOfClosingTagPath(p: string)
    requires p == "a</svg>.svg"
    ensures IconIds.DeriveIdAsWritten(p) == "a</svg>"
  {
    var head := "a</svg>";
    assert p == head + IconIds.SvgExtension + "";
    assert '.' !in head && '\\' !in head;
    forall i: nat | i <= |head|
      ensures !OccursAt(head, IconIds.SvgExtension, i)
    {
      if i + 4 <= |head| {
        assert head[i] in head;
        assert head[i..i + 4][0] == head[i];
      }
    }
    IconIds.AsWrittenIdAround(p, head, "");
  }

  /** The first `</svg>` of the tag for `a</svg>` is the one in the id. */
  lemma CloseInsideId(tag: string, rest: string)
    requires tag == Symbols.SymbolTag("a</svg>")
    ensures Symbols.CloseSymbol((tag + rest) + Symbols.SvgClose)
         == "<symbol id=\"a</symbol>\"" + rest + Symbols.SvgClose
  {
    var u := (tag + rest) + Symbols.SvgClose;
    var head := "<symbol id=\"a";
    assert tag == head + Symbols.SvgClose + "\"";
    assert u[..13] == head && u[13..19] == Symbols.SvgClose;
    assert u[19..] == "\"" + rest + Symbols.SvgClose;
    assert u[1..13] == head[1..];
    assert '<' !in head[1..];
    NoOccurrenceIn(u, Symbols.SvgClose, 1, 13);
    assert u[1] != Symbols.SvgClose[1];
    assert IsFirstOccurrence(u, Symbols.SvgClose, 13);
    assert head + Symbols.SymbolClose + ("\"" + rest + Symbols.SvgClose)
        == "<symbol id=\"a</symbol>\"" + rest + Symbols.SvgClose;
  }

  /** Without size attributes both corrected size rewrites change nothing. */
  lemma SizesAbsent(s: string)
    requires !Contains(s, "width=\"") && !Contains(s, "height=\"")
    ensures SizeAttributes.StripAttr(SizeAttributes.StripAttr(s, SizeAttributes.Intended("width")),
                                     SizeAttributes.Intended("height")) == s
  {
    assert SizeAttributes.Attr(SizeAttributes.Intended("width")) == "width=\"";
    assert SizeAttributes.Attr(SizeAttributes.Intended("height")) == "height=\"";
  }

  lemma OpenPlainIcon(rest: string, id: string)
    ensures Symbols.OpenSymbol(SizeAttributes.SvgOpen + rest + Symbols.SvgClose, id)
         == (Symbols.SymbolTag(id) + rest) + Symbols.SvgClose
  {
    var content := SizeAttributes.SvgOpen + rest + Symbols.SvgClose;
    var tag := Symbols.SymbolTag(id);
    assert content[..4] == SizeAttributes.SvgOpen;
    assert IsFirstOccurrence(content, SizeAttributes.SvgOpen, 0);
    calc {
      Symbols.OpenSymbol(content, id);
      content[..0] + tag + content[4..];
      { assert content[..0] == [] && content[4..] == rest + Symbols.SvgClose; }
      [] + tag + (rest + Symbols.SvgClose);
      (tag + rest) + Symbols.SvgClose;
    }
  }

  lemma ClosePlainIcon(tag: string, rest: string, id: string)
    requires tag == Symbols.SymbolTag(id) && !Contains(id, Symbols.SvgClose)
    requires !Contains(rest, Symbols.SvgClose)
    ensures Symbols.CloseSymbol((tag + rest) + Symbols.SvgClose) == tag + rest + Symbols.SymbolClose
  {
    TagCannotClose(id, rest);
    FirstOccurrenceAtEnd(tag + rest, Symbols.SvgClose);
    assert ((tag + rest) + Symbols.SvgClose)[..|tag + rest|] == tag + rest;
  }

  /** `</svg>` cannot straddle the symbol tag: the tag's fixed head has no
      `</`, and the quote closing the id is not part of `</svg>`. So it
      occurs in the tag followed by `rest` only if it occurs in the id or in
      `rest`. */
  lemma TagCannotClose(id: string, rest: string)
    requires !Contains(id, Symbols.SvgClose) && !Contains(rest, Symbols.SvgClose)
    ensures !Contains(Symbols.SymbolTag(id) + rest, Symbols.SvgClose)
  {
    var head := "<symbol id=\"";
    var pat := Symbols.SvgClose;
    var t := Symbols.SymbolTag(id) + rest;
    var q := 12 + |id|;
    assert t == head + id + "\"" + rest;
    assert t[..12] == head && t[q] == '"';
    forall j: nat | j <= |t|
      ensures !OccursAt(t, pat, j)
    {
      if j + 6 > |t| {
      } else if j == 0 {
        assert t[1] == head[1];
        assert t[j..j + 6][1] == 's';
      } else if j < 12 {
        assert t[j] == head[j];
        assert t[j..j + 6][0] != '<';
      } else if j + 6 <= q {
        assert t[j..j + 6] == id[j - 12..j - 6];
        assert !OccursAt(id, pat, j - 12);
      } else if j <= q {
        assert t[j..j + 6][q - j] == '"';
      } else {
        assert t[j..j + 6] == rest[j - q - 1..j - q + 5];
        assert !OccursAt(rest, pat, j - q - 1);
      }
    }
  }
}

=== FILE: icon_ids.dfy ===
/** The identifier each icon gets from its path relative to the icons
    directory (index.ts line 43). */
module IconIds {
  import opened Text

  const SvgExtension := ".svg"

  /** `.replace(/\\/g, '_')`: every backslash becomes an underscore; forward
      slashes are kept. */
  function NormalizeSeparators(s: string): (r: string)
    ensures |r| == |s|
    ensures '\\' !in r
    ensures forall i | 0 <= i < |s| :: s[i] != '\\' ==> r[i] == s[i]
  {
    ReplaceAllChar(s, '\\', '_')
  }

  /** The id as line 43 computes it: `.replace('.svg', '')` removes the FIRST
      occurrence of `.svg` wherever it is, then backslashes become `_`. */
  function DeriveIdAsWritten(relativePath: string): (id: string)
    ensures '\\' !in id
    ensures !Contains(relativePath, SvgExtension) ==> id == NormalizeSeparators(relativePath)
  {
    NormalizeSeparators(JsReplaceFirst(relativePath, SvgExtension, ""))
  }

  /** The id with the trailing extension removed, which is what line 43 is
      evidently meant to compute. */
  function DeriveId(relativePath: string): (id: string)
    ensures '\\' !in id
    ensures EndsWith(relativePath, SvgExtension) ==> |id| + |SvgExtension| == |relativePath|
    ensures !EndsWith(relativePath, SvgExtension) ==> |id| == |relativePath|
  {
    NormalizeSeparators(
      if EndsWith(relativePath, SvgExtension)
      then relativePath[..|relativePath| - |SvgExtension|]
      else relativePath)
  }

  /** Which reading of line 43 a scan applies: the code as written, or the
      corrected derivation. */
  datatype Derivation = AsWritten | Corrected

  /** The id of an icon under the chosen reading. */
  function Derive(d: Derivation, relativePath: string): (id: string)
    ensures '\\' !in id
    ensures d.AsWritten? && !Contains(relativePath, SvgExtension) ==> id == NormalizeSeparators(relativePath)
    ensures d.Corrected? && EndsWith(relativePath, SvgExtension) ==> |id| + |SvgExtension| == |relativePath|
  {
    match d
    case AsWritten => DeriveIdAsWritten(relativePath)
    case Corrected => DeriveId(relativePath)
  }

  /** When `.svg` occurs in the path only as its suffix, line 43 as written
      and the intended derivation agree: the id is the path without its last
      four characters, backslashes mapped to `_`. */
  lemma AsWrittenAgreesOnPlainNames(relativePath: string)
    requires EndsWith(relativePath, SvgExtension)
    requires forall i: nat | OccursAt(relativePath, SvgExtension, i) :: i + 4 == |relativePath|
    ensures DeriveIdAsWritten(relativePath) == DeriveId(relativePath)
    ensures DeriveId(relativePath)
         == NormalizeSeparators(relativePath[..|relativePath| - 4])
  {
    var n := |relativePath|;
    assert OccursAt(relativePath, SvgExtension, n - 4);
    assert IsFirstOccurrence(relativePath, SvgExtension, n - 4);
    JsReplaceLiteral(relativePath, SvgExtension, "");
    assert relativePath[n - 4 + 4..] == [];
  }

  /** A directory whose name contains `.svg` steals the removal: as written,
      `v1.svg/a.svg` becomes `v1/a.svg`, which keeps the extension, while the
      intended id is `v1.svg/a`. */
  lemma DirectoryNamedLikeIconKeepsExtension(p: string)
    requires p == "v1.svg/a.svg"
    ensures DeriveIdAsWritten(p) == "v1/a.svg"
    ensures DeriveId(p) == "v1.svg/a"
  {
    AsWrittenIdOfNestedIcon(p);
    IntendedIdOfNestedIcon(p);
  }

  lemma AsWrittenIdOfNestedIcon(p: string)
    requires p == "v1.svg/a.svg"
    ensures DeriveIdAsWritten(p) == "v1/a.svg"
  {
    var r := "v1/a.svg";
    assert '\\' !in r;
    calc {
      DeriveIdAsWritten(p);
      NormalizeSeparators(JsReplaceFirst(p, SvgExtension, ""));
      { FirstDotSvgRemoved(p); }
      NormalizeSeparators(r);
      { NormalizeIdentity(r); }
      r;
    }
  }

  lemma IntendedIdOfNestedIcon(p: string)
    requires p == "v1.svg/a.svg"
    ensures DeriveId(p) == "v1.svg/a"
  {
    var r := "v1.svg/a";
    assert '\\' !in r;
    calc {
      DeriveId(p);
      { TrailingDotSvgRemoved(p); }
      NormalizeSeparators(r);
      { NormalizeIdentity(r); }
      r;
    }
  }

  lemma FirstDotSvgRemoved(p: string)
    requires p == "v1.svg/a.svg"
    ensures JsReplaceFirst(p, SvgExtension, "") == "v1/a.svg"
  {
    assert p == "v1" + SvgExtension + "/a.svg";
    FirstDotSvgCut(p, "v1", "/a.svg");
  }

  /** As written, two distinct paths without a backslash can share an id:
      the directory `x.svg` loses its `.svg` in the first, the icon
      `a.svg.svg` its first `.svg` in the second. */
  lemma AsWrittenIdsCollide(p: string, q: string)
    requires p == "x.svg/a.svg" && q == "x/a.svg.svg"
    ensures p != q && '\\' !in p && '\\' !in q
    ensures DeriveIdAsWritten(p) == DeriveIdAsWritten(q) == "x/a.svg"
  {
    assert p[1] != q[1];
    AsWrittenIdOfDirectoryIcon(p);
    AsWrittenIdOfDoubleExtension(q);
  }

  lemma AsWrittenIdOfDirectoryIcon(p: string)
    requires p == "x.svg/a.svg"
    ensures '\\' !in p && DeriveIdAsWritten(p) == "x/a.svg"
  {
    var r := "x/a.svg";
    assert '\\' !in r;
    calc {
      DeriveIdAsWritten(p);
      NormalizeSeparators(JsReplaceFirst(p, SvgExtension, ""));
      { assert p == "x" + SvgExtension + "/a.svg";
        FirstDotSvgCut(p, "x", "/a.svg"); }
      NormalizeSeparators(r);
      { NormalizeIdentity(r); }
      r;
    }
  }

  lemma AsWrittenIdOfDoubleExtension(q: string)
    requires q == "x/a.svg.svg"
    ensures '\\' !in q && DeriveIdAsWritten(q) == "x/a.svg"
  {
    var r := "x/a.svg";
    assert '\\' !in r;
    calc {
      DeriveIdAsWritten(q);
      NormalizeSeparators(JsReplaceFirst(q, SvgExtension, ""));
      { assert q == "x/a" + SvgExtension + SvgExtension;
        FirstDotSvgCut(q, "x/a", SvgExtension); }
      NormalizeSeparators(r);
      { NormalizeIdentity(r); }
      r;
    }
  }

  /** Line 43 as written, for every path with a `.svg` in it: the id is
      the path without its first `.svg`, backslashes mapped to `_`. */
  lemma DeriveIdAsWrittenAt(p: string, i: nat)
    requires IsFirstOccurrence(p, SvgExtension, i)
    ensures DeriveIdAsWritten(p) == NormalizeSeparators(p[..i] + p[i + 4..])
  {
    JsReplaceAt(p, SvgExtension, "", i);
    assert JsSubstitute("", SvgExtension, p[..i], p[i + 4..]) == "";
  }

  /** The id, as written, of a backslash-free path whose first `.svg`
      follows `head`. */
  lemma AsWrittenIdAround(p: string, head: string, tail: string)
    requires p == head + SvgExtension + tail
    requires !Contains(head, SvgExtension) && '\\' !in head + tail
    ensures DeriveIdAsWritten(p) == head + tail
  {
    FirstDotSvgAfter(head, tail);
    assert p[..|head|] == head && p[|head| + 4..] == tail;
    calc {
      DeriveIdAsWritten(p);
      { DeriveIdAsWrittenAt(p, |head|); }
      NormalizeSeparators(head + tail);
      { NormalizeIdentity(head + tail); }
      head + tail;
    }
  }

  /** Removing the first `.svg` of a path whose part before it has none. */
  lemma FirstDotSvgCut(p: string, head: string, tail: string)
    requires p == head + SvgExtension + tail
    requires !Contains(head, SvgExtension)
    ensures JsReplaceFirst(p, SvgExtension, "") == head + tail
  {
    var i := |head|;
    assert p[..i] == head && p[i + 4..] == tail;
    FirstDotSvgAfter(head, tail);
    JsReplaceAt(p, SvgExtension, "", i);
    assert JsSubstitute("", SvgExtension, head, tail) == "";
  }

  /** `.svg` cannot overlap itself (its only dot is its first character), so
      after a head without `.svg` the next `.svg` is the first one. */
  lemma FirstDotSvgAfter(head: string, tail: string)
    requires !Contains(head, SvgExtension)
    ensures IsFirstOccurrence(head + SvgExtension + tail, SvgExtension, |head|)
  {
    var p := head + SvgExtension + tail;
    var n := |head|;
    assert p[n..n + 4] == SvgExtension;
    forall j: nat | j < n
      ensures !OccursAt(p, SvgExtension, j)
    {
      if j + 4 <= n {
        assert p[j..j + 4] == head[j..j + 4];
        assert !OccursAt(head, SvgExtension, j);
      } else {
        assert p[j..j + 4][n - j] == p[n] == '.';
        assert 0 < n - j < 4 && SvgExtension[n - j] != '.';
      }
    }
  }

  lemma TrailingDotSvgRemoved(p: string)
    requires p == "v1.svg/a.svg"
    ensures EndsWith(p, SvgExtension) && p[..|p| - 4] == "v1.svg/a"
  {
    assert p == "v1.svg/a" + SvgExtension;
  }

  /** Without backslashes normalisation changes nothing. */
  lemma NormalizeIdentity(s: string)
    requires '\\' !in s
    ensures NormalizeSeparators(s) == s
  {
    var r := NormalizeSeparators(s);
    forall i | 0 <= i < |s| ensures r[i] == s[i] {
      assert s[i] in s;
    }
  }

  /** Removing the id derivation's work: for a POSIX relative path (no
      backslash) ending in `.svg`, appending the extension to the id gives
      the path back. */
  lemma DeriveIdRoundTrip(relativePath: string)
    requires EndsWith(relativePath, SvgExtension)
    requires '\\' !in relativePath
    ensures DeriveId(relativePath) + SvgExtension == relativePath
  {
    var stem := relativePath[..|relativePath| - 4];
    assert '\\' !in stem by {
      forall i | 0 <= i < |stem| ensures stem[i] != '\\' {
        assert stem[i] == relativePath[i];
      }
    }
    NormalizeIdentity(stem);
    assert relativePath == stem + relativePath[|relativePath| - 4..];
  }

  /** Hence distinct POSIX icon paths get distinct ids. */
  lemma DeriveIdInjective(p: string, q: string)
    requires EndsWith(p, SvgExtension) && EndsWith(q, SvgExtension)
    requires '\\' !in p && '\\' !in q
    requires DeriveId(p) == DeriveId(q)
    ensures p == q
  {
    DeriveIdRoundTrip(p);
    DeriveIdRoundTrip(q);
  }

  /** On Windows-style paths the mapping is not injective, as written and
      corrected alike: a backslash and an underscore collide, so two icons
      can share one id. */
  lemma WindowsIdsCanCollide()
    ensures DeriveIdAsWritten("a\\b.svg") == DeriveIdAsWritten("a_b.svg") == "a_b"
    ensures DeriveId("a\\b.svg") == DeriveId("a_b.svg") == "a_b"
  {
    AsWrittenIdOfBackslashPath("a\\b.svg");
    AsWrittenIdOfUnderscorePath("a_b.svg");
    CorrectedIdsOfWindowsPaths();
  }

  lemma CorrectedIdsOfWindowsPaths()
    ensures DeriveId("a\\b.svg") == DeriveId("a_b.svg") == "a_b"
  {
    assert EndsWith("a\\b.svg", SvgExtension);
    assert EndsWith("a_b.svg", SvgExtension);
    assert "a\\b.svg"[..3] == "a\\b";
    assert "a_b.svg"[..3] == "a_b";
    assert NormalizeSeparators("a\\b") == "a_b";
    assert NormalizeSeparators("a_b") == "a_b";
  }

  lemma AsWrittenIdOfBackslashPath(p: string)
    requires p == "a\\b.svg"
    ensures DeriveIdAsWritten(p) == "a_b"
  {
    var head := "a\\b";
    calc {
      DeriveIdAsWritten(p);
      NormalizeSeparators(JsReplaceFirst(p, SvgExtension, ""));
      { assert p == head + SvgExtension + "";
        FirstDotSvgCut(p, head, ""); }
      NormalizeSeparators(head);
      { assert NormalizeSeparators(head)[1] == '_'; }
      "a_b";
    }
  }

  lemma AsWrittenIdOfUnderscorePath(p: string)
    requires p == "a_b.svg"
    ensures DeriveIdAsWritten(p) == "a_b"
  {
    var head := "a_b";
    assert '\\' !in head;
    calc {
      DeriveIdAsWritten(p);
      NormalizeSeparators(JsReplaceFirst(p, SvgExtension, ""));
      { assert p == head + SvgExtension + "";
        FirstDotSvgCut(p, head, ""); }
      NormalizeSeparators(head);
      { NormalizeIdentity(head); }
      head;
    }
  }
}

=== FILE: id_attributes.dfy ===
/** The first rewrite of each icon's markup (index.ts line 62):
    `.replace(/id="[^"]+"/g, '')`, which deletes every `id="…"` whose value
    is non-empty, scanning left to right the way a global regular-expression
    replace does. */
module IdAttributes {
  import opened Text

  const IdOpen := "id=\""

  /** `s` starts with a match of `id="[^"]+"` of length `n`: `id="`, a
      non-empty run of characters other than `"`, then `"`. */
  predicate IsIdMatch(s: string, n: nat) {
    && OccursAt(s, IdOpen, 0)
    && |IdOpen| + 2 <= n <= |s|
    && s[n - 1] == '"'
    && forall k | |IdOpen| <= k < n - 1 :: s[k] != '"'
  }

  /** Length of the match of `id="[^"]+"` at the start of `s`, if any: the
      value runs to the first quote after `id="` and must not be empty. */
  function IdMatchLength(s: string): (r: Option<nat>)
    ensures r.Some? ==> IsIdMatch(s, r.value)
    ensures r.None? ==> forall n: nat :: !IsIdMatch(s, n)
  {
    if !OccursAt(s, IdOpen, 0) then None
    else
      match NextChar(s, '"', |IdOpen|)
      case None => None
      case Some(c) =>
        if c == |IdOpen| then None else Some(c + 1)
  }

  /** The global replace: at each position either a whole match is deleted
      and the scan resumes after it, or one character is kept. */
  function StripIds(s: string): (r: string)
    ensures |r| <= |s|
    decreases |s|
  {
    if |s| == 0 then s
    else
      match IdMatchLength(s)
      case Some(n) => StripIds(s[n..])
      case None => [s[0]] + StripIds(s[1..])
  }

  /** Markup without `id="` passes through unchanged. */
  lemma {:induction false} StripIdsIdentity(s: string)
    requires !Contains(s, IdOpen)
    ensures StripIds(s) == s
    decreases |s|
  {
    if |s| > 0 {
      assert IdMatchLength(s) == None;
      ContainsInSuffix(s, 1, IdOpen);
      StripIdsIdentity(s[1..]);
      assert s == [s[0]] + s[1..];
    }
  }

  /** A character that cannot start `id="` is kept and the scan moves on. */
  lemma StripIdsKeepsOther(c: char, s: string)
    requires c != 'i'
    ensures StripIds([c] + s) == [c] + StripIds(s)
  {
    var t := [c] + s;
    assert !OccursAt(t, IdOpen, 0) by {
      if |IdOpen| <= |t| { assert t[..|IdOpen|][0] == c; }
    }
    assert IdMatchLength(t) == None;
    assert t[1..] == s;
  }

  /** `id="v"` with a non-empty quote-free value disappears entirely. */
  lemma StripIdsDeletesAttribute(v: string, s: string)
    requires |v| > 0 && '"' !in v
    ensures StripIds(IdOpen + v + "\"" + s) == StripIds(s)
  {
    var t := IdOpen + v + "\"" + s;
    var c := |IdOpen| + |v|;
    assert OccursAt(t, IdOpen, 0) by { assert t[..4] == IdOpen; }
    assert t[c] == '"';
    assert forall k | |IdOpen| <= k < c :: t[k] != '"' by {
      forall k | |IdOpen| <= k < c ensures t[k] != '"' {
        assert t[k] == v[k - |IdOpen|];
      }
    }
    assert NextChar(t, '"', |IdOpen|) == Some(c);
    assert IdMatchLength(t) == Some(c + 1);
    assert t[c + 1..] == s;
  }

  /** A stretch of text without the letter `i` cannot start a match and is
      kept as it is. */
  lemma {:induction false} StripIdsKeepsPrefix(p: string, s: string)
    requires 'i' !in p
    ensures StripIds(p + s) == p + StripIds(s)
    decreases |p|
  {
    if |p| > 0 {
      var c, q := p[0], p[1..];
      var t := q + s;
      assert p == [c] + q && c != 'i' && 'i' !in q;
      assert p + s == [c] + t;
      calc {
        StripIds(p + s);
        StripIds([c] + t);
        { StripIdsKeepsOther(c, t); }
        [c] + StripIds(t);
        { StripIdsKeepsPrefix(q, s); }
        [c] + (q + StripIds(s));
        { ConsLetter(c, q, StripIds(s)); }
        p + StripIds(s);
      }
    } else {
      assert p + s == s;
    }
  }

  /** `id=""` (empty value) does not match and is kept in full. */
  lemma StripIdsKeepsEmptyId(s: string)
    ensures StripIds("id=\"\"" + s) == "id=\"\"" + StripIds(s)
  {
    var rest := "d=\"\"";
    assert 'i' !in rest;
    calc {
      StripIds("id=\"\"" + s);
      { StripIdsSkipsEmptyId(s); }
      ['i'] + StripIds(rest + s);
      { StripIdsKeepsPrefix(rest, s); }
      ['i'] + (rest + StripIds(s));
      { ConsLetter('i', rest, StripIds(s)); }
      (['i'] + rest) + StripIds(s);
      "id=\"\"" + StripIds(s);
    }
  }

  lemma StripIdsSkipsEmptyId(s: string)
    ensures StripIds("id=\"\"" + s) == ['i'] + StripIds("d=\"\"" + s)
  {
    var t := "id=\"\"" + s;
    assert OccursAt(t, IdOpen, 0) by { assert t[..4] == IdOpen; }
    assert t[4] == '"';
    assert IdMatchLength(t) == None;
    assert t[1..] == "d=\"\"" + s;
  }

  lemma ConsLetter(c: char, p: string, w: string)
    ensures [c] + (p + w) == ([c] + p) + w
  {
  }
}

=== FILE: scanner.dfy ===
/** The recursive directory scan `getSvgFiles` (index.ts lines 31-48). The
    filesystem is an input tree: a directory listing is the sequence of its
    entries in the order `readdir` returns them. */
module Scanner {
  import opened Text
  import IconIds

  /** One directory entry: a directory with its own listing, a regular file,
      or anything else (symbolic link, socket, device...). */
  datatype Entry = Dir(name: string, children: seq<Entry>) | File(name: string) | Other(name: string)

  /** The record the scan emits per icon. */
  datatype SvgFile = SvgFile(id: string, filePath: string)

  /** Where a scan runs: the absolute path of the icons directory, the
      platform's path separator, and the reading of line 43 that names the
      icons. */
  datatype Place = Place(root: string, sep: char, ids: IconIds.Derivation)

  /** The scan's test for an icon: a regular file whose name ends in `.svg`,
      compared case-sensitively. */
  predicate IsIcon(e: Entry) {
    e.File? && EndsWith(e.name, IconIds.SvgExtension)
  }

  /** The record for the icon at relative segments `segments`: its id comes
      from the relative path, its file path is the root joined with them. */
  function Record(place: Place, segments: seq<string>): SvgFile {
    SvgFile(IconIds.Derive(place.ids, Join(segments, place.sep)),
            Join([place.root] + segments, place.sep))
  }

  /** `getSvgFiles` on the listing `entries` of the directory reached by the
      relative segments `prefix`: entries in listing order, a directory's
      results spliced in at its position. */
  function Scan(entries: seq<Entry>, prefix: seq<string>, place: Place): seq<SvgFile>
    decreases entries
  {
    if |entries| == 0 then []
    else ScanEntry(entries[0], prefix, place) + Scan(entries[1..], prefix, place)
  }

  /** What one entry of a listing contributes to the scan: a directory is
      scanned recursively, an icon gives its record, anything else nothing. */
  function ScanEntry(e: Entry, prefix: seq<string>, place: Place): seq<SvgFile>
    decreases e
  {
    match e
    case Dir(name, children) => Scan(children, prefix + [name], place)
    case File(name) =>
      if EndsWith(name, IconIds.SvgExtension) then [Record(place, prefix + [name])] else []
    case Other(_) => []
  }

  /** The scan of the icons directory itself. */
  function ScanRoot(listing: seq<Entry>, place: Place): seq<SvgFile> {
    Scan(listing, [], place)
  }

  /** An entry of the tree with the relative segments leading to it. */
  datatype Located = Located(segments: seq<string>, entry: Entry)

  /** Reference order: every entry of the tree, depth first, each directory
      before its contents, siblings in listing order. */
  function Walk(entries: seq<Entry>, prefix: seq<string>): seq<Located>
    decreases entries
  {
    if |entries| == 0 then []
    else WalkEntry(entries[0], prefix) + Walk(entries[1..], prefix)
  }

  /** An entry, located, followed by everything below it. */
  function WalkEntry(e: Entry, prefix: seq<string>): seq<Located>
    decreases e
  {
    [Located(prefix + [e.name], e)]
    + match e
      case Dir(name, children) => Walk(children, prefix + [name])
      case _ => []
  }

  /** Reference selection: the records of the icons among `located`, in order. */
  function IconsAmong(located: seq<Located>, place: Place): seq<SvgFile> {
    if |located| == 0 then []
    else
      (if IsIcon(located[0].entry) then [Record(place, located[0].segments)] else [])
      + IconsAmong(located[1..], place)
  }

  /** Number of icons in a listing, counted over the whole tree. */
  function CountIcons(entries: seq<Entry>): nat
    decreases entries
  {
    if |entries| == 0 then 0
    else CountEntry(entries[0]) + CountIcons(entries[1..])
  }

  function CountEntry(e: Entry): nat
    decreases e
  {
    match e
    case Dir(_, children) => CountIcons(children)
    case _ => if IsIcon(e) then 1 else 0
  }

  lemma {:induction false} IconsAmongAppend(a: seq<Located>, b: seq<Located>, place: Place)
    ensures IconsAmong(a + b, place) == IconsAmong(a, place) + IconsAmong(b, place)
    decreases |a|
  {
    if |a| > 0 {
      assert (a + b)[1..] == a[1..] + b;
      IconsAmongAppend(a[1..], b, place);
    } else {
      assert a + b == b;
    }
  }

  /** The scan emits exactly the regular `.svg` files of the tree, in
      depth-first pre-order: it is the reference walk with everything but
      icons (directories, other files, other entries) filtered out. */
  lemma {:induction false} ScanIsIconsOfWalk(entries: seq<Entry>, prefix: seq<string>, place: Place)
    ensures Scan(entries, prefix, place) == IconsAmong(Walk(entries, prefix), place)
    decreases entries
  {
    if |entries| > 0 {
      ScanEntryIsIconsOfWalk(entries[0], prefix, place);
      ScanIsIconsOfWalk(entries[1..], prefix, place);
      IconsAmongAppend(WalkEntry(entries[0], prefix), Walk(entries[1..], prefix), place);
    }
  }

  lemma {:induction false} ScanEntryIsIconsOfWalk(e: Entry, prefix: seq<string>, place: Place)
    ensures ScanEntry(e, prefix, place) == IconsAmong(WalkEntry(e, prefix), place)
    decreases e
  {
    var self := [Located(prefix + [e.name], e)];
    assert IconsAmong(self, place)
        == (if IsIcon(e) then [Record(place, prefix + [e.name])] else []);
    match e
    case Dir(name, children) =>
      ScanIsIconsOfWalk(children, prefix + [name], place);
      IconsAmongAppend(self, Walk(children, prefix + [name]), place);
    case File(name) =>
      IconsAmongAppend(self, [], place);
      assert self + [] == self;
    case Other(name) =>
      IconsAmongAppend(self, [], place);
      assert self + [] == self;
  }

  /** The scan of two consecutive runs of a listing is the concatenation of
      their scans. */
  lemma {:induction false} ScanAppend(a: seq<Entry>, b: seq<Entry>, prefix: seq<string>, place: Place)
    ensures Scan(a + b, prefix, place) == Scan(a, prefix, place) + Scan(b, prefix, place)
    decreases |a|
  {
    if |a| == 0 {
      assert a + b == b;
    } else {
      assert (a + b)[0] == a[0];
      assert (a + b)[1..] == a[1..] + b;
      ScanAppend(a[1..], b, prefix, place);
    }
  }

  /** A directory's results appear contiguously, at the directory's position
      in its parent's listing, with the directory's name added to the
      relative path. */
  lemma DirectorySpliced(before: seq<Entry>, name: string, children: seq<Entry>, after: seq<Entry>,
                         prefix: seq<string>, place: Place)
    ensures Scan(before + [Dir(name, children)] + after, prefix, place)
         == Scan(before, prefix, place) + Scan(children, prefix + [name], place) + Scan(after, prefix, place)
  {
    var d := [Dir(name, children)];
    ScanAppend(before + d, after, prefix, place);
    ScanAppend(before, d, prefix, place);
    assert Scan(d, prefix, place) == Scan(children, prefix + [name], place) by {
      assert d[1..] == [];
    }
  }

  /** The scan emits one record per icon of the tree. */
  lemma {:induction false} ScanLength(entries: seq<Entry>, prefix: seq<string>, place: Place)
    ensures |Scan(entries, prefix, place)| == CountIcons(entries)
    decreases entries
  {
    if |entries| > 0 {
      ScanEntryLength(entries[0], prefix, place);
      ScanLength(entries[1..], prefix, place);
    }
  }

  lemma {:induction false} ScanEntryLength(e: Entry, prefix: seq<string>, place: Place)
    ensures |ScanEntry(e, prefix, place)| == CountEntry(e)
    decreases e
  {
    match e
    case Dir(name, children) => ScanLength(children, prefix + [name], place);
    case File(_) =>
    case Other(_) =>
  }

  /** Every located entry's path extends the prefix and ends in the entry's
      own name. */
  ghost predicate LocatedUnder(l: Located, prefix: seq<string>) {
    |prefix| < |l.segments| && l.segments[..|prefix|] == prefix
    && l.segments[|l.segments| - 1] == l.entry.name
  }

  lemma {:induction false} WalkSegments(entries: seq<Entry>, prefix: seq<string>)
    ensures forall l | l in Walk(entries, prefix) :: LocatedUnder(l, prefix)
    decreases entries
  {
    if |entries| > 0 {
      WalkEntrySegments(entries[0], prefix);
      WalkSegments(entries[1..], prefix);
    }
  }

  lemma {:induction false} WalkEntrySegments(e: Entry, prefix: seq<string>)
    ensures forall l | l in WalkEntry(e, prefix) :: LocatedUnder(l, prefix)
    decreases e
  {
    assert LocatedUnder(Located(prefix + [e.name], e), prefix) by {
      assert (prefix + [e.name])[..|prefix|] == prefix;
    }
    match e
    case Dir(name, children) =>
      WalkSegments(children, prefix + [name]);
      forall l | l in Walk(children, prefix + [name])
        ensures LocatedUnder(l, prefix)
      {
        assert l.segments[..|prefix|] == l.segments[..|prefix| + 1][..|prefix|];
      }
    case _ =>
  }

  /** Every record selected from a walk is the record of one of its icons. */
  lemma {:induction false} IconsAmongAreRecords(located: seq<Located>, place: Place)
    ensures forall f | f in IconsAmong(located, place) ::
              exists l | l in located :: IsIcon(l.entry) && f == Record(place, l.segments)
    decreases |located|
  {
    if |located| > 0 {
      IconsAmongAreRecords(located[1..], place);
      forall f | f in IconsAmong(located, place)
        ensures exists l | l in located :: IsIcon(l.entry) && f == Record(place, l.segments)
      {
        if IsIcon(located[0].entry) && f == Record(place, located[0].segments) {
          assert located[0] in located;
        } else {
          assert f in IconsAmong(located[1..], place);
          var l :| l in located[1..] && IsIcon(l.entry) && f == Record(place, l.segments);
          assert l in located;
        }
      }
    }
  }

  /** Every emitted record names an `.svg` file under the root, and its id
      carries no backslash. */
  lemma RecordsAreIcons(listing: seq<Entry>, place: Place)
    requires place.sep !in IconIds.SvgExtension
    ensures forall f | f in ScanRoot(listing, place) ::
              EndsWith(f.filePath, IconIds.SvgExtension) && '\\' !in f.id
  {
    ScanIsIconsOfWalk(listing, [], place);
    WalkSegments(listing, []);
    IconsAmongAreRecords(Walk(listing, []), place);
    forall f | f in ScanRoot(listing, place)
      ensures EndsWith(f.filePath, IconIds.SvgExtension)
    {
      var l :| l in Walk(listing, []) && IsIcon(l.entry) && f == Record(place, l.segments);
      var all := [place.root] + l.segments;
      JoinSnoc(all, place.sep);
      EndsWithAroundSeparator(Join(all[..|all| - 1], place.sep), place.sep, all[|all| - 1],
                              IconIds.SvgExtension);
    }
  }
}

=== FILE: settings.dfy ===
/** The plugin's two checks before it scans (index.ts lines 12-30): both
    directories must be configured, and the icons directory must exist. */
module Settings {
  import opened Text

  /** The ways one generation pass can fail. */
  datatype Error =
    | MissingDirectories
    | SourceMissing(dir: string)
    | ReadFailed(path: string)

  /** The text of the error each failure throws; a failed read carries the
      runtime's own message, which is not part of this model. */
  function Message(e: Error): (m: string)
    ensures e.SourceMissing? ==> Contains(m, e.dir) && EndsWith(m, " does not exist")
  {
    match e
    case MissingDirectories =>
      "Both iconsDir (source directory for SVG icons) and outDir (output directory) must be specified"
    case SourceMissing(dir) =>
      var head, tail := "Source directory ", " does not exist";
      var m := head + dir + tail;
      assert m[|head|..|head| + |dir|] == dir;
      assert OccursAt(m, dir, |head|);
      assert m[|m| - |tail|..] == tail;
      m
    case ReadFailed(path) => path
  }

  /** `validateDirectories`: an empty (falsy) directory setting is rejected. */
  function ValidateDirectories(iconsDir: string, outDir: string): (r: Result<(), Error>)
    ensures r.Err? <==> iconsDir == "" || outDir == ""
    ensures r.Err? ==> r.error == MissingDirectories
  {
    if iconsDir == "" || outDir == "" then Err(MissingDirectories) else Ok(())
  }

  /** `ensureDirectoriesExist`: a missing icons directory is an error naming
      the configured setting (not the resolved path); a missing output
      directory is created. The result tells whether it was. */
  function EnsureDirectories(iconsDir: string, sourceExists: bool, outExists: bool): (r: Result<bool, Error>)
    ensures r.Err? <==> !sourceExists
    ensures r.Err? ==> r.error == SourceMissing(iconsDir)
    ensures r.Ok? ==> (r.value <==> !outExists)
  {
    if !sourceExists then Err(SourceMissing(iconsDir)) else Ok(!outExists)
  }
}

=== FILE: size_attributes.dfy ===
/** The second and third rewrites of each icon's markup (index.ts lines
    63-64): `.replace(/<svg([^>]+)width="[^"]*"([^>]+)>/, '<svg$1$2>')` and
    the same for `height`. Each is a single (non-global) regular-expression
    replace, modelled by its backtracking semantics: the match starts at the
    leftmost position where one exists, and at that position the greedy
    group 1 takes the longest run that lets the rest match. Once the start
    `p` and the end `a` of group 1 are fixed, the rest of the match is
    unique: the value runs to the next `"`, and group 2 runs to the next
    `>`. */
module SizeAttributes {
  import opened Text

  const SvgOpen := "<svg"

  /** One reading of the pattern `<svg(G1)NAME="[^"]*"(G2)>`.
      `spaceBefore`: group 1 must end in white space (`[^>]*\s`) instead of
      being any non-empty run of non-`>` characters (`[^>]+`).
      `minTail`: the least length of group 2 (1 for `[^>]+`, 0 for `[^>]*`). */
  datatype Pattern = Pattern(name: string, spaceBefore: bool, minTail: nat)

  /** The pattern as lines 63-64 write it. */
  function AsWritten(name: string): Pattern {
    Pattern(name, false, 1)
  }

  /** The pattern those lines evidently intend: `<svg([^>]*\s)NAME="[^"]*"([^>]*)>`,
      which also strips an attribute written last in the tag and never
      strips the tail of a longer attribute name such as `stroke-width`. */
  function Intended(name: string): Pattern {
    Pattern(name, true, 0)
  }

  /** The text `NAME="` that opens the attribute. */
  function Attr(pat: Pattern): string {
    pat.name + "=\""
  }

  /** White space as the intended pattern's `\s` reads it. */
  predicate IsSpace(c: char) {
    c == ' ' || c == '\t' || c == '\n' || c == '\r'
  }

  /** Group 1 can run from just after `<svg` at `p` up to `a`. */
  predicate GroupOne(s: string, pat: Pattern, p: nat, a: nat) {
    && p + |SvgOpen| < a <= |s|
    && (forall k | p + |SvgOpen| <= k < a :: s[k] != '>')
    && (pat.spaceBefore ==> IsSpace(s[a - 1]))
  }

  /** The tail `[^"]*"(G2)>` of the pattern matches after the attribute at
      `a`, with the value's closing quote at `c` and the tag's `>` at `f`. */
  predicate TailAt(s: string, pat: Pattern, a: nat, c: nat, f: nat) {
    && a + |Attr(pat)| <= c < f < |s|
    && s[c] == '"' && s[f] == '>'
    && c + 1 + pat.minTail <= f
    && (forall k | a + |Attr(pat)| <= k < c :: s[k] != '"')
    && (forall k | c < k < f :: s[k] != '>')
  }

  /** Given the attribute at `a`, the closing quote `c` of its value and the
      `>` at `f` that ends the tag, if both exist and group 2 between them is
      long enough; nothing when the tail matches nowhere. */
  function Closing(s: string, pat: Pattern, a: nat): (r: Option<(nat, nat)>)
    ensures r.Some? ==> a + |Attr(pat)| <= r.value.0 < r.value.1 < |s|
    ensures r.Some? ==> s[r.value.0] == '"' && s[r.value.1] == '>'
    ensures r.Some? ==> r.value.0 + 1 + pat.minTail <= r.value.1
    ensures r.Some? ==> forall k | a + |Attr(pat)| <= k < r.value.0 :: s[k] != '"'
    ensures r.Some? ==> forall k | r.value.0 < k < r.value.1 :: s[k] != '>'
    ensures r.None? ==> forall c: nat, f: nat :: !TailAt(s, pat, a, c, f)
  {
    match NextChar(s, '"', a + |Attr(pat)|)
    case None => None
    case Some(c) =>
      match NextChar(s, '>', c + 1)
      case None => None
      case Some(f) => if c + 1 + pat.minTail <= f then Some((c, f)) else None
  }

  /** The pattern matches with `<svg` at `p` and group 1 ending at `a`. */
  predicate Candidate(s: string, pat: Pattern, p: nat, a: nat) {
    && OccursAt(s, SvgOpen, p)
    && GroupOne(s, pat, p, a)
    && OccursAt(s, Attr(pat), a)
    && Closing(s, pat, a).Some?
  }

  /** The match a JavaScript regular expression reports: leftmost start,
      then the longest group 1. */
  ghost predicate IsChosen(s: string, pat: Pattern, p: nat, a: nat) {
    && Candidate(s, pat, p, a)
    && (forall q: nat, b: nat | q < p :: !Candidate(s, pat, q, b))
    && (forall b: nat | a < b :: !Candidate(s, pat, p, b))
  }

  /** Backtracking: the largest `b` with `lo < b <= hi` that satisfies `ok`,
      trying `hi`, `hi - 1`, ... in turn. */
  function Largest(ok: nat -> bool, lo: nat, hi: nat): (r: Option<nat>)
    ensures r.Some? ==> lo < r.value <= hi && ok(r.value)
    decreases hi
  {
    if hi <= lo then None
    else if ok(hi) then Some(hi)
    else Largest(ok, lo, hi - 1)
  }

  /** Nothing larger than the value found satisfies `ok`. */
  lemma {:induction false} LargestIsLargest(ok: nat -> bool, lo: nat, hi: nat)
    requires Largest(ok, lo, hi).Some?
    ensures forall b: nat | Largest(ok, lo, hi).value < b <= hi :: !ok(b)
    decreases hi
  {
    if hi > lo && !ok(hi) {
      LargestIsLargest(ok, lo, hi - 1);
    }
  }

  /** Backtracking fails only when nothing in range satisfies `ok`. */
  lemma {:induction false} LargestNone(ok: nat -> bool, lo: nat, hi: nat)
    requires Largest(ok, lo, hi).None?
    ensures forall b: nat | lo < b <= hi :: !ok(b)
    decreases hi
  {
    if hi > lo {
      LargestNone(ok, lo, hi - 1);
    }
  }

  /** The ends of group 1 that let the pattern match with `<svg` at `p`. */
  function MatchEnds(s: string, pat: Pattern, p: nat): nat -> bool {
    (b: nat) => Candidate(s, pat, p, b)
  }

  /** Backtracking over group 1 at start `p`: tries ends `hi`, `hi - 1`, ... */
  function LongestGroupOne(s: string, pat: Pattern, p: nat, hi: nat): (r: Option<nat>)
    ensures r.Some? ==> r.value <= hi && Candidate(s, pat, p, r.value)
  {
    Largest(MatchEnds(s, pat, p), p + |SvgOpen|, hi)
  }

  /** The group 1 found is the longest up to `hi`. */
  lemma LongestGroupOneIsLongest(s: string, pat: Pattern, p: nat, hi: nat)
    requires LongestGroupOne(s, pat, p, hi).Some?
    ensures forall b: nat | LongestGroupOne(s, pat, p, hi).value < b <= hi :: !Candidate(s, pat, p, b)
  {
    var ok := MatchEnds(s, pat, p);
    LargestIsLargest(ok, p + |SvgOpen|, hi);
    forall b: nat | Largest(ok, p + |SvgOpen|, hi).value < b <= hi
      ensures !Candidate(s, pat, p, b)
    {
      assert !ok(b);
    }
  }

  /** Backtracking fails only when no group 1 up to `hi` lets the pattern
      match. */
  lemma LongestGroupOneNone(s: string, pat: Pattern, p: nat, hi: nat)
    requires LongestGroupOne(s, pat, p, hi).None?
    ensures forall b: nat | b <= hi :: !Candidate(s, pat, p, b)
  {
    var ok := MatchEnds(s, pat, p);
    LargestNone(ok, p + |SvgOpen|, hi);
    forall b: nat | b <= hi ensures !Candidate(s, pat, p, b) {
      if b > p + |SvgOpen| { assert !ok(b); }
    }
  }

  /** The regular-expression search: tries starts `p`, `p + 1`, ... */
  function SearchFrom(s: string, pat: Pattern, p: nat): (r: Option<(nat, nat)>)
    requires p <= |s|
    ensures r.Some? ==> p <= r.value.0 && Candidate(s, pat, r.value.0, r.value.1)
    decreases |s| - p
  {
    match LongestGroupOne(s, pat, p, |s|)
    case Some(a) => Some((p, a))
    case None => if p == |s| then None else SearchFrom(s, pat, p + 1)
  }

  /** A match found by the search is the leftmost, with the longest group 1. */
  lemma {:induction false} SearchFromIsChosen(s: string, pat: Pattern, p: nat)
    requires p <= |s| && SearchFrom(s, pat, p).Some?
    ensures forall q: nat, b: nat | p <= q < SearchFrom(s, pat, p).value.0 :: !Candidate(s, pat, q, b)
    ensures forall b: nat | SearchFrom(s, pat, p).value.1 < b :: !Candidate(s, pat, SearchFrom(s, pat, p).value.0, b)
    decreases |s| - p
  {
    match LongestGroupOne(s, pat, p, |s|)
    case Some(a) =>
      assert SearchFrom(s, pat, p) == Some((p, a));
      LongestGroupOneIsLongest(s, pat, p, |s|);
      CandidateWithin(s, pat, p);
      forall b: nat | a < b ensures !Candidate(s, pat, p, b) {
        if b <= |s| {
          assert LongestGroupOne(s, pat, p, |s|).value < b <= |s|;
        }
      }
    case None =>
      var r := SearchFrom(s, pat, p + 1);
      assert SearchFrom(s, pat, p) == r;
      LongestGroupOneNone(s, pat, p, |s|);
      CandidateWithin(s, pat, p);
      SearchFromIsChosen(s, pat, p + 1);
      forall q: nat, b: nat | p <= q < r.value.0 ensures !Candidate(s, pat, q, b) {
        if q > p {
          assert p + 1 <= q < r.value.0;
        }
      }
  }

  /** The search fails only when the pattern matches nowhere from `p` on. */
  lemma {:induction false} SearchFromNone(s: string, pat: Pattern, p: nat)
    requires p <= |s| && SearchFrom(s, pat, p).None?
    ensures forall q: nat, b: nat | p <= q :: !Candidate(s, pat, q, b)
    decreases |s| - p
  {
    LongestGroupOneNone(s, pat, p, |s|);
    CandidateWithin(s, pat, p);
    if p < |s| {
      assert SearchFrom(s, pat, p + 1).None?;
      SearchFromNone(s, pat, p + 1);
      forall q: nat, b: nat | p <= q ensures !Candidate(s, pat, q, b) {
        if q > p {
          assert p + 1 <= q;
        }
      }
    } else {
      forall q: nat, b: nat | p <= q ensures !Candidate(s, pat, q, b) {
        if q > p { assert !OccursAt(s, SvgOpen, q); }
      }
    }
  }

  /** Group 1 ends inside the text. */
  lemma CandidateWithin(s: string, pat: Pattern, p: nat)
    ensures forall b: nat | |s| < b :: !Candidate(s, pat, p, b)
  {
  }

  /** `s.replace(regex, '<svg$1$2>')`: the match is replaced by `<svg`,
      group 1, group 2 and `>`. Nothing happens when the pattern does not
      match. */
  function StripAttr(s: string, pat: Pattern): (r: string)
    ensures (forall p: nat, a: nat :: !Candidate(s, pat, p, a)) ==> r == s
    ensures !Contains(s, Attr(pat)) ==> r == s
    ensures |r| <= |s|
  {
    var found := SearchFrom(s, pat, 0);
    if found.None? then
      SearchFromNone(s, pat, 0);
      s
    else
      SearchFoundChosen(s, pat, found.value.0, found.value.1);
      ReplaceMatch(s, pat, found.value.0, found.value.1)
  }

  /** The replacement `<svg$1$2>` put in place of the match with `<svg` at
      `p` and group 1 ending at `a`: exactly the attribute text
      `NAME="value"` is cut out. */
  function ReplaceMatch(s: string, pat: Pattern, p: nat, a: nat): (r: string)
    requires Candidate(s, pat, p, a)
    ensures r == s[..a] + s[Closing(s, pat, a).value.0 + 1..]
  {
    var c, f := Closing(s, pat, a).value.0, Closing(s, pat, a).value.1;
    Reassemble(s, p, a, c, f);
    s[..p] + SvgOpen + s[p + |SvgOpen|..a] + s[c + 1..f] + ">" + s[f + 1..]
  }

  /** When the pattern matches, exactly the chosen attribute text is cut
      out. */
  lemma StripAttrCutsChosen(s: string, pat: Pattern, p: nat, a: nat)
    requires IsChosen(s, pat, p, a)
    ensures StripAttr(s, pat) == s[..a] + s[Closing(s, pat, a).value.0 + 1..]
  {
    var found := SearchFrom(s, pat, 0);
    if found.None? {
      SearchFromNone(s, pat, 0);
      assert false;
    } else {
      SearchFoundChosen(s, pat, found.value.0, found.value.1);
      assert StripAttr(s, pat) == ReplaceMatch(s, pat, p, a);
    }
  }

  /** What the search finds from the start is the one chosen match. */
  lemma SearchFoundChosen(s: string, pat: Pattern, p: nat, a: nat)
    requires SearchFrom(s, pat, 0) == Some((p, a))
    ensures IsChosen(s, pat, p, a) && Contains(s, Attr(pat))
    ensures forall q: nat, b: nat | IsChosen(s, pat, q, b) :: q == p && b == a
  {
    SearchFromIsChosen(s, pat, 0);
    ChosenUnique(s, pat, p, a);
    ContainsFromOccurrence(s, Attr(pat), a);
  }

  lemma ContainsFromOccurrence(s: string, pat: string, i: nat)
    requires OccursAt(s, pat, i)
    ensures Contains(s, pat)
  {
  }

  /** There is at most one chosen match. */
  lemma ChosenUnique(s: string, pat: Pattern, p: nat, a: nat)
    requires IsChosen(s, pat, p, a)
    ensures forall q: nat, b: nat | IsChosen(s, pat, q, b) :: q == p && b == a
  {
  }

  /** Putting `<svg`, group 1, group 2 and `>` back around the cut-out
      attribute gives the text with only the attribute removed. */
  lemma Reassemble(s: string, p: nat, a: nat, c: nat, f: nat)
    requires OccursAt(s, SvgOpen, p)
    requires p + |SvgOpen| <= a <= c < f < |s| && s[f] == '>'
    ensures s[..p] + SvgOpen + s[p + |SvgOpen|..a] + s[c + 1..f] + ">" + s[f + 1..]
         == s[..a] + s[c + 1..]
  {
    assert s[..a] == s[..p] + s[p..p + |SvgOpen|] + s[p + |SvgOpen|..a];
    assert s[c + 1..] == s[c + 1..f] + [s[f]] + s[f + 1..];
  }

  /** As written, an attribute whose closing quote is directly followed by
      the tag's `>` is never matched: group 2 `([^>]+)` needs at least one
      character there. */
  lemma AsWrittenMissesLastAttribute(s: string, name: string, p: nat, a: nat, c: nat)
    requires OccursAt(s, Attr(AsWritten(name)), a)
    requires NextChar(s, '"', a + |Attr(AsWritten(name))|) == Some(c)
    requires c + 1 < |s| && s[c + 1] == '>'
    ensures !Candidate(s, AsWritten(name), p, a)
  {
    assert NextChar(s, '>', c + 1) == Some(c + 1);
  }

  /** An attribute written last in the tag, as written: in `<svg width="1">`
      nothing stands between the value and `>`, so line 63 leaves the markup
      unchanged. */
  lemma LastAttributeSurvivesAsWritten(s: string)
    requires s == "<svg width=\"1\">"
    ensures StripAttr(s, AsWritten("width")) == s
  {
    NoCandidateForLastAttribute(s);
  }

  lemma NoCandidateForLastAttribute(s: string)
    requires s == "<svg width=\"1\">"
    ensures forall p: nat, a: nat :: !Candidate(s, AsWritten("width"), p, a)
  {
    assert s[1..] == "svg width=\"1\">";
    OnlyTagAtStart(s);
    NoWidthAfterFive(s, AsWritten("width"));
    WidthAtFiveNotCandidate(s);
    OnlyCandidateAt(s, AsWritten("width"), 5);
  }

  lemma NoWidthAfterFive(s: string, pat: Pattern)
    requires s == "<svg width=\"1\">" && pat.name == "width"
    ensures forall a: nat | 5 < a :: !OccursAt(s, Attr(pat), a)
  {
    assert Attr(pat) == "width=\"";
    assert s[6..] == "idth=\"1\">";
    NoOccurrenceFrom(s, Attr(pat), 6);
  }

  lemma WidthAtFiveNotCandidate(s: string)
    requires s == "<svg width=\"1\">"
    ensures !Candidate(s, AsWritten("width"), 0, 5)
  {
    assert Attr(AsWritten("width")) == "width=\"";
    assert s[12] == '1' && s[13] == '"' && s[14] == '>';
    assert NextChar(s, '"', 12) == Some(13);
    AsWrittenMissesLastAttribute(s, "width", 0, 5, 13);
  }

  lemma OnlyTagAtStart(s: string)
    requires 0 < |s| && s[0] == '<' && '<' !in s[1..]
    ensures forall p: nat | 1 <= p :: !OccursAt(s, SvgOpen, p)
  {
    NoOccurrenceFrom(s, SvgOpen, 1);
  }

  /** When `<svg` can only start at 0 and the attribute can start no later
      than `a`, a candidate other than `(0, a)` is impossible. */
  lemma OnlyCandidateAt(s: string, pat: Pattern, a: nat)
    requires forall p: nat | 1 <= p :: !OccursAt(s, SvgOpen, p)
    requires forall b: nat | a < b :: !OccursAt(s, Attr(pat), b)
    requires forall b: nat | b < a :: !OccursAt(s, Attr(pat), b) || b <= |SvgOpen|
    requires !Candidate(s, pat, 0, a)
    ensures forall p: nat, b: nat :: !Candidate(s, pat, p, b)
  {
  }

  /** An attribute written last in the tag, intended: the same width
      attribute is removed. */
  lemma LastAttributeStrippedIntended(s: string)
    requires s == "<svg width=\"1\">"
    ensures StripAttr(s, Intended("width")) == "<svg >"
  {
    var pat := Intended("width");
    LastAttributeCandidate(s, pat);
    NoWidthAfterFive(s, pat);
    assert IsChosen(s, pat, 0, 5);
    calc {
      StripAttr(s, pat);
      { StripAttrCutsChosen(s, pat, 0, 5); }
      s[..5] + s[14..];
      { LastAttributeSplit(s);
        LastAttributeCut(s); }
      "<svg >";
    }
  }

  lemma LastAttributeCandidate(s: string, pat: Pattern)
    requires s == "<svg width=\"1\">" && pat == Intended("width")
    ensures Candidate(s, pat, 0, 5) && Closing(s, pat, 5) == Some((13, 14))
  {
    LastAttributeSplit(s);
    LastAttributePieceFacts(s, pat);
  }

  /** The tag with an attribute written last, `<svg width="1">`, in pieces:
      `<svg` (indices 0-3), a space (4), `width="` (5-11) and `1">` (12-14). */
  predicate LastAttributePieces(s: string) {
    && |s| == 15
    && s[..4] == SvgOpen
    && s[4] == ' '
    && s[5..12] == "width=\""
    && s[12..] == "1\">"
  }

  lemma LastAttributeSplit(s: string)
    requires s == "<svg width=\"1\">"
    ensures LastAttributePieces(s)
  {
    var h, w, e := "<svg ", "width=\"", "1\">";
    assert s == h + w + e;
    var hw := h + w;
    assert s[..12] == hw && s[12..] == e;
    assert hw[..5] == h && hw[5..] == w;
    assert h[..4] == SvgOpen;
  }

  lemma LastAttributeCut(s: string)
    requires LastAttributePieces(s)
    ensures s[..5] + s[14..] == "<svg >"
  {
    assert s[..5] == s[..4] + [s[4]];
    assert s[14..] == s[12..][2..];
  }

  lemma LastAttributePieceFacts(s: string, pat: Pattern)
    requires LastAttributePieces(s) && pat == Intended("width")
    ensures Candidate(s, pat, 0, 5) && Closing(s, pat, 5) == Some((13, 14))
  {
    assert Attr(pat) == "width=\"";
    assert s[12] == '1' && s[13] == '"' && s[14] == '>' by {
      assert s[12] == s[12..][0] && s[13] == s[12..][1] && s[14] == s[12..][2];
    }
    assert NextChar(s, '"', 12) == Some(13);
    assert NextChar(s, '>', 14) == Some(14);
    assert GroupOne(s, pat, 0, 5);
  }

  /** No character `c` at any index of `s[lo..hi]`. */
  lemma NotInSlice(s: string, c: char, lo: nat, hi: nat)
    requires lo <= hi <= |s| && c !in s[lo..hi]
    ensures forall k | lo <= k < hi :: s[k] != c
  {
    forall k | lo <= k < hi ensures s[k] != c {
      assert s[k] == s[lo..hi][k - lo];
    }
  }

  /** The tag with a `width` inside `stroke-width`,
      `<svg width="1" stroke-width="2" >`, in four pieces: `<svg width="1"`
      (indices 0-13), ` stroke-` (14-21), `width="` (22-28) and `2" >`
      (29-32). */
  predicate StrokeWidthPieces(s: string) {
    && |s| == 33
    && s[..14] == "<svg width=\"1\""
    && s[14..22] == " stroke-"
    && s[22..29] == "width=\""
    && s[29..] == "2\" >"
  }

  lemma StrokeWidthSplit(s: string)
    requires s == "<svg width=\"1\" stroke-width=\"2\" >"
    ensures StrokeWidthPieces(s)
  {
    var h, m, w, e := "<svg width=\"1\"", " stroke-", "width=\"", "2\" >";
    assert s == h + m + w + e;
    var hm := h + m;
    var hmw := hm + w;
    assert s == hmw + e;
    assert s[..29] == hmw && s[29..] == e;
    assert hmw[..22] == hm && hmw[22..] == w;
    assert hm[..14] == h && hm[14..] == m;
  }

  /** What the example's first piece holds: the tag, the real `width`
      attribute, and no `>`; no `w` after the attribute's own. */
  lemma StrokeHeadFacts(s: string)
    requires 14 <= |s| && s[..14] == "<svg width=\"1\""
    ensures OccursAt(s, SvgOpen, 0) && OccursAt(s, "width=\"", 5)
    ensures s[4] == ' ' && s[12] == '1' && s[13] == '"'
    ensures forall k | 4 <= k < 14 :: s[k] != '>'
    ensures forall k | 6 <= k < 14 :: s[k] != 'w'
  {
    assert s[..4] == SvgOpen;
    assert s[5..12] == "width=\"";
    StrokeHeadNoClose(s);
    StrokeHeadNoW(s);
  }

  lemma StrokeHeadNoClose(s: string)
    requires 14 <= |s| && s[..14] == "<svg width=\"1\""
    ensures forall k | 4 <= k < 14 :: s[k] != '>'
  {
    assert s[4..14] == " width=\"1\"";
    NotInSlice(s, '>', 4, 14);
  }

  lemma StrokeHeadNoW(s: string)
    requires 14 <= |s| && s[..14] == "<svg width=\"1\""
    ensures forall k | 6 <= k < 14 :: s[k] != 'w'
  {
    assert s[6..14] == "idth=\"1\"";
    NotInSlice(s, 'w', 6, 14);
  }

  /** What the other pieces hold: `stroke-width="2"` and the tag's only `>`
      at the end. */
  lemma StrokeTailFacts(s: string)
    requires StrokeWidthPieces(s)
    ensures OccursAt(s, "width=\"", 22)
    ensures s[21] == '-' && s[29] == '2' && s[30] == '"' && s[31] == ' ' && s[32] == '>'
    ensures forall k | 14 <= k < 32 :: s[k] != '>'
    ensures forall k | 14 <= k < 22 :: s[k] != 'w'
    ensures 'w' !in s[23..]
  {
    NotInSlice(s, '>', 14, 22);
    NotInSlice(s, 'w', 14, 22);
    assert s[22..29][1..] == s[23..29];
    NotInSlice(s, '>', 22, 29);
    assert s[23..] == s[23..29] + s[29..];
    assert forall k | 29 <= k < 32 :: s[k] == s[29..][k - 29];
  }

  /** A `width` inside `stroke-width`, as written: group 1 is greedy, so
      when `stroke-width` comes after `width` in the tag, line 63 cuts `width="2"` out of
      `stroke-width="2"` and leaves both the real width and a dangling
      `stroke-`. */
  lemma StrokeWidthHitAsWritten(s: string)
    requires s == "<svg width=\"1\" stroke-width=\"2\" >"
    ensures StripAttr(s, AsWritten("width")) == "<svg width=\"1\" stroke- >"
  {
    StrokeWidthSplit(s);
    var pat := AsWritten("width");
    StrokeWidthChosenAsWritten(s, pat);
    calc {
      StripAttr(s, pat);
      { StripAttrCutsChosen(s, pat, 0, 22); }
      s[..22] + s[31..];
      { StrokeWidthCutAsWritten(s); }
      "<svg width=\"1\" stroke- >";
    }
  }

  lemma StrokeWidthCutAsWritten(s: string)
    requires StrokeWidthPieces(s)
    ensures s[..22] + s[31..] == "<svg width=\"1\" stroke- >"
  {
    assert s[..22] == s[..14] + s[14..22];
    assert s[31..] == s[29..][2..];
  }

  lemma StrokeWidthChosenAsWritten(s: string, pat: Pattern)
    requires StrokeWidthPieces(s)
    requires pat == AsWritten("width")
    ensures IsChosen(s, pat, 0, 22) && Closing(s, pat, 22) == Some((30, 32))
  {
    StrokeHeadFacts(s);
    StrokeTailFacts(s);
    assert Attr(pat) == "width=\"";
    assert NextChar(s, '"', 29) == Some(30);
    assert NextChar(s, '>', 31) == Some(32);
    assert GroupOne(s, pat, 0, 22);
    NoOccurrenceFrom(s, Attr(pat), 23);
  }

  /** A `width` inside `stroke-width`, intended: only a `width` preceded by
      white space is the attribute, so the real width goes and `stroke-width` stays. */
  lemma StrokeWidthKeptIntended(s: string)
    requires s == "<svg width=\"1\" stroke-width=\"2\" >"
    ensures StripAttr(s, Intended("width")) == "<svg  stroke-width=\"2\" >"
  {
    StrokeWidthSplit(s);
    var pat := Intended("width");
    StrokeWidthChosenIntended(s, pat);
    calc {
      StripAttr(s, pat);
      { StripAttrCutsChosen(s, pat, 0, 5); }
      s[..5] + s[14..];
      { StrokeWidthCutIntended(s); }
      "<svg  stroke-width=\"2\" >";
    }
  }

  lemma StrokeWidthChosenIntended(s: string, pat: Pattern)
    requires StrokeWidthPieces(s)
    requires pat == Intended("width")
    ensures IsChosen(s, pat, 0, 5) && Closing(s, pat, 5).value.0 == 13
  {
    WidthFirstCandidate(s, pat);
    NoLongerGroupOneIntended(s, pat);
  }

  lemma StrokeWidthCutIntended(s: string)
    requires StrokeWidthPieces(s)
    ensures s[..5] + s[14..] == "<svg  stroke-width=\"2\" >"
  {
    assert s[..5] == s[..14][..5];
    assert s[14..] == s[14..22] + s[22..29] + s[29..];
  }

  lemma WidthFirstCandidate(s: string, pat: Pattern)
    requires StrokeWidthPieces(s)
    requires pat == Intended("width")
    ensures Candidate(s, pat, 0, 5) && Closing(s, pat, 5).value.0 == 13
  {
    StrokeHeadFacts(s);
    StrokeTailFacts(s);
    assert Attr(pat) == "width=\"";
    assert NextChar(s, '"', 12) == Some(13);
    assert NextChar(s, '>', 14).Some?;
  }

  lemma NoLongerGroupOneIntended(s: string, pat: Pattern)
    requires StrokeWidthPieces(s)
    requires pat == Intended("width")
    ensures forall b: nat | 5 < b :: !Candidate(s, pat, 0, b)
  {
    StrokeHeadFacts(s);
    StrokeTailFacts(s);
    assert Attr(pat) == "width=\"";
    NoOccurrenceIn(s, Attr(pat), 6, 14);
    NoOccurrenceIn(s, Attr(pat), 14, 22);
    NoOccurrenceFrom(s, Attr(pat), 23);
    assert !IsSpace(s[21]);
  }
}

=== FILE: sprite.dfy ===
/** One generation pass (index.ts lines 50-74): validate, locate the
    directories, scan, read and rewrite every icon, and assemble the sprite
    that is written to `icon-sprite.svg` in the output directory. The
    filesystem and the working directory are an input `Env`. */
module Sprite {
  import opened Text
  import Settings
  import Scanner
  import Fragment
  import IconIds

  const Header := "<svg width=\"0\" height=\"0\" style=\"display: none\">\n"
  const Footer := "</svg>"
  const SpriteFileName := "icon-sprite.svg"

  /** `symbols += svgContent + '\n'` over the fragments in order. */
  function SymbolBlock(frags: seq<string>): string
    decreases |frags|
  {
    if |frags| == 0 then ""
    else SymbolBlock(frags[..|frags| - 1]) + frags[|frags| - 1] + "\n"
  }

  /** Reference definition: each fragment on its own line, first to last. */
  function Lines(frags: seq<string>): string
    decreases |frags|
  {
    if |frags| == 0 then "" else frags[0] + "\n" + Lines(frags[1..])
  }

  /** The sprite document around the symbols. */
  function Assemble(frags: seq<string>): (sprite: string)
    ensures |Header| + |Footer| <= |sprite|
    ensures sprite[..|Header|] == Header && EndsWith(sprite, Footer)
  {
    var sprite := Header + SymbolBlock(frags) + Footer;
    assert sprite[..|Header|] == Header;
    assert sprite[|sprite| - |Footer|..] == Footer;
    sprite
  }

  /** What lies between the sprite's header and footer. */
  function Body(sprite: string): string
    requires |Header| + |Footer| <= |sprite|
  {
    sprite[|Header|..|sprite| - |Footer|]
  }

  /** The accumulated text is the reference line-by-line rendering. */
  lemma {:induction false} SymbolBlockIsLines(frags: seq<string>)
    ensures SymbolBlock(frags) == Lines(frags)
    decreases |frags|
  {
    if |frags| > 0 {
      var n := |frags|;
      SymbolBlockIsLines(frags[..n - 1]);
      LinesSnoc(frags[..n - 1], frags[n - 1]);
      assert frags[..n - 1] + [frags[n - 1]] == frags;
    }
  }

  lemma {:induction false} LinesSnoc(frags: seq<string>, x: string)
    ensures Lines(frags + [x]) == Lines(frags) + x + "\n"
    decreases |frags|
  {
    if |frags| == 0 {
      assert frags + [x] == [x];
      assert [x][1..] == [];
    } else {
      var rest := frags[1..];
      assert (frags + [x])[0] == frags[0];
      assert (frags + [x])[1..] == rest + [x];
      calc {
        Lines(frags + [x]);
        frags[0] + "\n" + Lines(rest + [x]);
        { LinesSnoc(rest, x); }
        frags[0] + "\n" + (Lines(rest) + x + "\n");
        (frags[0] + "\n" + Lines(rest)) + x + "\n";
        Lines(frags) + x + "\n";
      }
    }
  }

  /** Accumulating two runs of fragments is concatenating their texts. */
  lemma {:induction false} SymbolBlockAppend(a: seq<string>, b: seq<string>)
    ensures SymbolBlock(a + b) == SymbolBlock(a) + SymbolBlock(b)
    decreases |b|
  {
    if |b| == 0 {
      assert a + b == a;
    } else {
      var n := |b|;
      assert (a + b)[..|a + b| - 1] == a + b[..n - 1];
      assert (a + b)[|a + b| - 1] == b[n - 1];
      SymbolBlockAppend(a, b[..n - 1]);
    }
  }

  /** Fragment `i` appears whole, followed by a newline, after the text of
      the fragments before it and before the text of those after it. */
  lemma FragmentInPlace(frags: seq<string>, i: nat)
    requires i < |frags|
    ensures SymbolBlock(frags)
         == SymbolBlock(frags[..i]) + frags[i] + "\n" + SymbolBlock(frags[i + 1..])
  {
    SplitAt(frags, i);
    SymbolBlockAround(frags[..i], frags[i], frags[i + 1..]);
  }

  lemma SplitAt<T>(xs: seq<T>, i: nat)
    requires i < |xs|
    ensures xs == xs[..i] + [xs[i]] + xs[i + 1..]
  {
  }

  lemma SymbolBlockAround(a: seq<string>, x: string, b: seq<string>)
    ensures SymbolBlock(a + [x] + b) == SymbolBlock(a) + x + "\n" + SymbolBlock(b)
  {
    SymbolBlockAppend(a + [x], b);
    SymbolBlockSnoc(a, x);
  }

  lemma SymbolBlockSnoc(a: seq<string>, x: string)
    ensures SymbolBlock(a + [x]) == SymbolBlock(a) + x + "\n"
  {
    assert (a + [x])[..|a|] == a;
  }

  /** The sprite's body gives back the accumulated symbols. */
  lemma BodyOfAssemble(frags: seq<string>)
    ensures Body(Assemble(frags)) == SymbolBlock(frags)
  {
    var b := SymbolBlock(frags);
    assert (Header + b + Footer)[|Header|..|Header| + |b|] == b;
  }

  /** Without icons the sprite is the bare wrapper. */
  lemma EmptySprite()
    ensures Assemble([]) == Header + Footer
  {
  }

  /** The world one pass runs in: the working directory, the path
      separator, whether each directory exists, the icons directory's tree,
      and the readable files' contents by path. */
  datatype Env = Env(cwd: string, sep: char, sourceExists: bool, outExists: bool,
                     listing: seq<Scanner.Entry>, disk: map<string, string>)

  /** The effect of a successful pass: the file written and its contents,
      and whether the output directory had to be created. */
  datatype Written = Written(path: string, sprite: string, createdOutDir: bool)

  /** How one icon's markup and id become its fragment: the plugin uses
      `Fragment.RewriteAsWritten`. */
  type Rewriter = (string, string) -> string

  /** Read and rewrite the scanned icons in order; the first unreadable file
      aborts the pass. */
  function Fragments(files: seq<Scanner.SvgFile>, disk: map<string, string>, rewrite: Rewriter)
    : Result<seq<string>, Settings.Error>
    decreases |files|
  {
    if |files| == 0 then Ok([])
    else if files[0].filePath !in disk then Err(Settings.ReadFailed(files[0].filePath))
    else
      match Fragments(files[1..], disk, rewrite)
      case Err(e) => Err(e)
      case Ok(rest) => Ok([rewrite(disk[files[0].filePath], files[0].id)] + rest)
  }

  /** Every file readable. */
  predicate AllReadable(files: seq<Scanner.SvgFile>, disk: map<string, string>) {
    forall i | 0 <= i < |files| :: files[i].filePath in disk
  }

  /** `k` is the first unreadable file. */
  predicate FirstUnreadable(files: seq<Scanner.SvgFile>, disk: map<string, string>, k: nat) {
    k < |files| && files[k].filePath !in disk
    && forall i | 0 <= i < k :: files[i].filePath in disk
  }

  /** Reading succeeds exactly when every file is readable, and then gives
      one rewritten fragment per file, in order. */
  lemma {:induction false} FragmentsOk(files: seq<Scanner.SvgFile>, disk: map<string, string>, rewrite: Rewriter)
    ensures Fragments(files, disk, rewrite).Ok? <==> AllReadable(files, disk)
    ensures Fragments(files, disk, rewrite).Ok? ==>
              |Fragments(files, disk, rewrite).value| == |files|
              && forall i | 0 <= i < |files| ::
                   Fragments(files, disk, rewrite).value[i]
                   == rewrite(disk[files[i].filePath], files[i].id)
    decreases |files|
  {
    if |files| > 0 {
      FragmentsOk(files[1..], disk, rewrite);
      if files[0].filePath in disk && AllReadable(files[1..], disk) {
        forall i | 0 <= i < |files| ensures files[i].filePath in disk {
          if i > 0 { assert files[i] == files[1..][i - 1]; }
        }
      }
      if AllReadable(files, disk) {
        forall i | 0 <= i < |files[1..]| ensures files[1..][i].filePath in disk {
          assert files[1..][i] == files[i + 1];
        }
      }
    }
  }

  /** A failed read reports the first unreadable file. */
  lemma {:induction false} FragmentsErr(files: seq<Scanner.SvgFile>, disk: map<string, string>, rewrite: Rewriter, k: nat)
    requires FirstUnreadable(files, disk, k)
    ensures Fragments(files, disk, rewrite) == Err(Settings.ReadFailed(files[k].filePath))
    decreases |files|
  {
    if k > 0 {
      assert files[0].filePath in disk;
      assert FirstUnreadable(files[1..], disk, k - 1) by {
        forall i | 0 <= i < k - 1 ensures files[1..][i].filePath in disk {
          assert files[1..][i] == files[i + 1];
        }
      }
      FragmentsErr(files[1..], disk, rewrite, k - 1);
    }
  }

  /** Extending the files by one at the end. */
  lemma {:induction false} FragmentsSnoc(files: seq<Scanner.SvgFile>, f: Scanner.SvgFile,
                                         disk: map<string, string>, rewrite: Rewriter, done: seq<string>)
    requires Fragments(files, disk, rewrite) == Ok(done)
    ensures f.filePath in disk ==>
              Fragments(files + [f], disk, rewrite) == Ok(done + [rewrite(disk[f.filePath], f.id)])
    ensures f.filePath !in disk ==>
              Fragments(files + [f], disk, rewrite) == Err(Settings.ReadFailed(f.filePath))
    decreases |files|
  {
    if |files| == 0 {
      assert files + [f] == [f];
      assert [f][1..] == [];
      assert done == [];
      if f.filePath in disk {
        var y := rewrite(disk[f.filePath], f.id);
        assert [y] + [] == done + [y];
      }
    } else {
      assert (files + [f])[0] == files[0];
      assert (files + [f])[1..] == files[1..] + [f];
      var rest := Fragments(files[1..], disk, rewrite).value;
      FragmentsSnoc(files[1..], f, disk, rewrite, rest);
      if f.filePath in disk {
        var head := rewrite(disk[files[0].filePath], files[0].id);
        var y := rewrite(disk[f.filePath], f.id);
        assert done == [head] + rest;
        assert [head] + (rest + [y]) == done + [y];
      }
    }
  }

  /** The path of a directory setting, relative to the working directory. */
  function Resolve(env: Env, dir: string): string {
    Join([env.cwd, dir], env.sep)
  }

  /** The icons the pass finds under the resolved icons directory. */
  function IconFiles(env: Env, iconsDir: string, ids: IconIds.Derivation): seq<Scanner.SvgFile> {
    Scanner.ScanRoot(env.listing, Scanner.Place(Resolve(env, iconsDir), env.sep, ids))
  }

  /** Where the sprite is written. */
  function SpritePath(env: Env, outDir: string): string {
    Join([Resolve(env, outDir), SpriteFileName], env.sep)
  }

  /** `generateIconSprite` as a whole, for any rewrite of the icons'
      markup. */
  function Pass(iconsDir: string, outDir: string, env: Env, ids: IconIds.Derivation, rewrite: Rewriter)
    : Result<Written, Settings.Error>
  {
    match Settings.ValidateDirectories(iconsDir, outDir)
    case Err(e) => Err(e)
    case Ok(_) =>
      match Settings.EnsureDirectories(iconsDir, env.sourceExists, env.outExists)
      case Err(e) => Err(e)
      case Ok(created) =>
        match Fragments(IconFiles(env, iconsDir, ids), env.disk, rewrite)
        case Err(e) => Err(e)
        case Ok(frags) => Ok(Written(SpritePath(env, outDir), Assemble(frags), created))
  }

  /** The plugin's pass as the code is written: ids by line 43 as written
      and markup by the chain of lines 61-66 as written. It succeeds exactly
      when the settings are valid, the icons directory exists and every icon
      is readable, and then writes the wrapped sprite to `icon-sprite.svg`
      in the output directory. */
  function Generate(iconsDir: string, outDir: string, env: Env): (r: Result<Written, Settings.Error>)
    ensures r.Ok? <==> iconsDir != "" && outDir != "" && env.sourceExists
                       && AllReadable(IconFiles(env, iconsDir, IconIds.AsWritten), env.disk)
    ensures r.Ok? ==> r.value.path == SpritePath(env, outDir) && |Header| + |Footer| <= |r.value.sprite|
                      && r.value.sprite[..|Header|] == Header && EndsWith(r.value.sprite, Footer)
  {
    FragmentsOk(IconFiles(env, iconsDir, IconIds.AsWritten), env.disk, Fragment.RewriteAsWritten);
    Pass(iconsDir, outDir, env, IconIds.AsWritten, Fragment.RewriteAsWritten)
  }

  /** The same pass with the corrected id derivation and rewrite. */
  function GenerateCorrected(iconsDir: string, outDir: string, env: Env): (r: Result<Written, Settings.Error>)
    ensures r.Ok? <==> iconsDir != "" && outDir != "" && env.sourceExists
                       && AllReadable(IconFiles(env, iconsDir, IconIds.Corrected), env.disk)
    ensures r.Ok? ==> r.value.path == SpritePath(env, outDir) && |Header| + |Footer| <= |r.value.sprite|
                      && r.value.sprite[..|Header|] == Header && EndsWith(r.value.sprite, Footer)
  {
    FragmentsOk(IconFiles(env, iconsDir, IconIds.Corrected), env.disk, Fragment.Rewrite);
    Pass(iconsDir, outDir, env, IconIds.Corrected, Fragment.Rewrite)
  }

  /** The pass as the source runs it: a loop appending each rewritten
      fragment and a newline to `symbols`. */
  method GenerateIconSprite(iconsDir: string, outDir: string, env: Env, ids: IconIds.Derivation, rewrite: Rewriter)
    returns (r: Result<Written, Settings.Error>)
    ensures r == Pass(iconsDir, outDir, env, ids, rewrite)
  {
    if iconsDir == "" || outDir == "" {
      return Err(Settings.MissingDirectories);
    }
    if !env.sourceExists {
      return Err(Settings.SourceMissing(iconsDir));
    }
    var files := IconFiles(env, iconsDir, ids);
    var symbols := "";
    ghost var done: seq<string> := [];
    var i := 0;
    while i < |files|
      invariant 0 <= i <= |files|
      invariant Fragments(files[..i], env.disk, rewrite) == Ok(done)
      invariant symbols == SymbolBlock(done)
    {
      var f := files[i];
      assert files[..i + 1] == files[..i] + [f];
      FragmentsSnoc(files[..i], f, env.disk, rewrite, done);
      if f.filePath !in env.disk {
        FragmentsOk(files[..i], env.disk, rewrite);
        assert forall j | 0 <= j < i :: files[j] == files[..i][j];
        FragmentsErr(files, env.disk, rewrite, i);
        return Err(Settings.ReadFailed(f.filePath));
      }
      var svgContent := rewrite(env.disk[f.filePath], f.id);
      symbols := symbols + svgContent + "\n";
      done := done + [svgContent];
      i := i + 1;
    }
    assert files[..i] == files;
    var sprite := Header + symbols + Footer;
    return Ok(Written(SpritePath(env, outDir), sprite, !env.outExists));
  }

  /** The pass fails with the configuration error exactly when a directory
      setting is empty, whatever the filesystem holds. */
  lemma PassRejectsMissingDirectories(iconsDir: string, outDir: string, env: Env, ids: IconIds.Derivation, rewrite: Rewriter)
    ensures Pass(iconsDir, outDir, env, ids, rewrite) == Err(Settings.MissingDirectories)
        <==> iconsDir == "" || outDir == ""
  {
    FragmentsErrIsRead(IconFiles(env, iconsDir, ids), env.disk, rewrite);
  }

  /** Reading can only fail on a read. */
  lemma {:induction false} FragmentsErrIsRead(files: seq<Scanner.SvgFile>, disk: map<string, string>, rewrite: Rewriter)
    ensures Fragments(files, disk, rewrite).Err? ==> Fragments(files, disk, rewrite).error.ReadFailed?
    decreases |files|
  {
    if |files| > 0 {
      FragmentsErrIsRead(files[1..], disk, rewrite);
    }
  }

  /** With valid settings, a missing icons directory fails the pass before
      anything is read, and only then does the pass report it. */
  lemma PassNeedsSource(iconsDir: string, outDir: string, env: Env, ids: IconIds.Derivation, rewrite: Rewriter)
    requires iconsDir != "" && outDir != ""
    ensures Pass(iconsDir, outDir, env, ids, rewrite) == Err(Settings.SourceMissing(iconsDir))
        <==> !env.sourceExists
  {
    FragmentsErrIsRead(IconFiles(env, iconsDir, ids), env.disk, rewrite);
  }

  /** A tree without icons still yields a sprite: the bare wrapper. */
  lemma PassWithoutIcons(iconsDir: string, outDir: string, env: Env, ids: IconIds.Derivation, rewrite: Rewriter)
    requires iconsDir != "" && outDir != "" && env.sourceExists
    requires Scanner.CountIcons(env.listing) == 0
    ensures Pass(iconsDir, outDir, env, ids, rewrite).Ok?
    ensures Pass(iconsDir, outDir, env, ids, rewrite).value.sprite == Header + Footer
  {
    var place := Scanner.Place(Resolve(env, iconsDir), env.sep, ids);
    Scanner.ScanLength(env.listing, [], place);
  }

  /** With valid settings and an existing icons directory, the pass succeeds
      exactly when every scanned icon is readable; the sprite then holds one
      rewritten fragment per icon, in scan order, and is written to
      `icon-sprite.svg` in the output directory. */
  lemma PassSucceeds(iconsDir: string, outDir: string, env: Env, ids: IconIds.Derivation, rewrite: Rewriter)
    requires iconsDir != "" && outDir != "" && env.sourceExists
    ensures Pass(iconsDir, outDir, env, ids, rewrite).Ok? <==> AllReadable(IconFiles(env, iconsDir, ids), env.disk)
    ensures Pass(iconsDir, outDir, env, ids, rewrite).Ok? ==>
              var w := Pass(iconsDir, outDir, env, ids, rewrite).value;
              var frags := Fragments(IconFiles(env, iconsDir, ids), env.disk, rewrite).value;
              && w.path == Join([env.cwd, outDir, SpriteFileName], env.sep)
              && w.createdOutDir == !env.outExists
              && |frags| == |IconFiles(env, iconsDir, ids)| == Scanner.CountIcons(env.listing)
              && AllReadable(IconFiles(env, iconsDir, ids), env.disk)
              && (forall i | 0 <= i < |frags| ::
                    frags[i] == rewrite(env.disk[IconFiles(env, iconsDir, ids)[i].filePath],
                                        IconFiles(env, iconsDir, ids)[i].id))
              && Body(w.sprite) == SymbolBlock(frags)
  {
    var files := IconFiles(env, iconsDir, ids);
    FragmentsOk(files, env.disk, rewrite);
    Scanner.ScanLength(env.listing, [], Scanner.Place(Resolve(env, iconsDir), env.sep, ids));
    if Fragments(files, env.disk, rewrite).Ok? {
      BodyOfAssemble(Fragments(files, env.disk, rewrite).value);
      JoinThree(env.cwd, outDir, SpriteFileName, env.sep);
    }
  }

  /** Joining three segments at once is joining the first two, then the
      third. */
  lemma JoinThree(a: string, b: string, c: string, sep: char)
    ensures Join([a, b, c], sep) == Join([Join([a, b], sep), c], sep)
  {
    assert [a, b, c][1..] == [b, c];
    assert [b, c][1..] == [c];
    assert [a, b][1..] == [b];
    assert a + [sep] + (b + [sep] + c) == (a + [sep] + b) + [sep] + c;
  }
}

=== FILE: symbols.dfy ===
/** The last two rewrites of each icon's markup (index.ts lines 65-66): the
    first `<svg` becomes the opening of a `<symbol>` carrying the icon's id,
    and the first `</svg>` becomes `</symbol>`. Both are JavaScript
    `replace` calls with a string pattern, so only the first occurrence is
    touched. */
module Symbols {
  import opened Text
  import SizeAttributes

  const SvgClose := "</svg>"
  const SymbolClose := "</symbol>"

  /** The text that takes the place of `<svg`: `<symbol id="ID"`. */
  function SymbolTag(id: string): string {
    "<symbol id=\"" + id + "\""
  }

  /** Line 65 as written: the tag is a replacement template, so `$$`, `$&`,
      `` $` `` and `$'` inside the id are expanded. For ids without `$` it
      is the literal replacement. */
  function OpenSymbolAsWritten(s: string, id: string): (r: string)
    ensures !Contains(s, SizeAttributes.SvgOpen) ==> r == s
    ensures '$' !in id ==> r == OpenSymbol(s, id)
  {
    assert '$' !in id ==> JsReplaceFirst(s, SizeAttributes.SvgOpen, SymbolTag(id))
                          == ReplaceFirst(s, SizeAttributes.SvgOpen, SymbolTag(id)) by {
      if '$' !in id {
        JsReplaceLiteral(s, SizeAttributes.SvgOpen, SymbolTag(id));
      }
    }
    JsReplaceFirst(s, SizeAttributes.SvgOpen, SymbolTag(id))
  }

  /** Line 65 as intended: the first `<svg` is replaced by the tag taken
      literally; the text before and after it is unchanged. */
  function OpenSymbol(s: string, id: string): (r: string)
    ensures !Contains(s, SizeAttributes.SvgOpen) ==> r == s
    ensures forall i: nat | IsFirstOccurrence(s, SizeAttributes.SvgOpen, i) ::
              r == s[..i] + SymbolTag(id) + s[i + |SizeAttributes.SvgOpen|..]
  {
    ReplaceFirst(s, SizeAttributes.SvgOpen, SymbolTag(id))
  }

  /** Line 66: the first `</svg>` is replaced by `</symbol>`; the template
      holds no `$`, so as written and as intended coincide. */
  function CloseSymbol(s: string): (r: string)
    ensures !Contains(s, SvgClose) ==> r == s
    ensures forall i: nat | IsFirstOccurrence(s, SvgClose, i) ::
              r == s[..i] + SymbolClose + s[i + |SvgClose|..]
  {
    JsReplaceLiteral(s, SvgClose, SymbolClose);
    JsReplaceFirst(s, SvgClose, SymbolClose)
  }

  /** A `$` pattern in the id, as written: an id containing `$&` pulls the
      matched `<svg` into the attribute value, where the intended
      replacement keeps the id as it is. */
  lemma DollarIdExpandedAsWritten(s: string, id: string)
    requires s == "<svg/>" && id == "$&"
    ensures OpenSymbolAsWritten(s, id) == "<symbol id=\"<svg\"/>"
    ensures OpenSymbol(s, id) == "<symbol id=\"$&\"/>"
  {
    SvgAtStart(s);
    DollarIdAsWritten(s, id);
    DollarIdIntended(s, id);
  }

  lemma DollarIdAsWritten(s: string, id: string)
    requires IsFirstOccurrence(s, SizeAttributes.SvgOpen, 0)
    requires s[..0] == "" && s[4..] == "/>" && id == "$&"
    ensures OpenSymbolAsWritten(s, id) == "<symbol id=\"<svg\"/>"
  {
    var open := SizeAttributes.SvgOpen;
    var t := SymbolTag(id);
    calc {
      OpenSymbolAsWritten(s, id);
      JsReplaceFirst(s, open, t);
      { JsReplaceAt(s, open, t, 0); }
      "" + JsSubstitute(t, open, "", "/>") + "/>";
      { SubstituteExample(t, open, "/>"); }
      "" + ("<symbol id=\"" + open + "\"") + "/>";
      "<symbol id=\"<svg\"/>";
    }
  }

  lemma DollarIdIntended(s: string, id: string)
    requires IsFirstOccurrence(s, SizeAttributes.SvgOpen, 0)
    requires s[..0] == "" && s[4..] == "/>" && id == "$&"
    ensures OpenSymbol(s, id) == "<symbol id=\"$&\"/>"
  {
    assert OpenSymbol(s, id) == "" + SymbolTag(id) + "/>";
  }

  /** `<svg/>` is the tag itself followed by `/>`. */
  lemma SvgAtStart(s: string)
    requires s == "<svg/>"
    ensures IsFirstOccurrence(s, SizeAttributes.SvgOpen, 0)
    ensures s[..0] == "" && s[4..] == "/>"
  {
    assert s == SizeAttributes.SvgOpen + "/>";
    assert s[..4] == SizeAttributes.SvgOpen;
  }

  lemma SubstituteExample(t: string, matched: string, after: string)
    requires t == "<symbol id=\"$&\""
    ensures JsSubstitute(t, matched, "", after) == "<symbol id=\"" + matched + "\""
  {
    var head, tail := "<symbol id=\"", "$&\"";
    assert t == head + tail;
    assert tail[2..] == "\"";
    calc {
      JsSubstitute(t, matched, "", after);
      { SubstituteLiteralPrefix(head, tail, matched, after); }
      head + JsSubstitute(tail, matched, "", after);
      head + (matched + JsSubstitute("\"", matched, "", after));
      { SubstituteLiteral("\"", matched, "", after); }
      head + (matched + "\"");
      head + matched + "\"";
    }
  }

  /** A `$`-free prefix of a template is copied through unchanged. */
  lemma {:induction false} SubstituteLiteralPrefix(p: string, t: string, matched: string, after: string)
    requires '$' !in p
    ensures JsSubstitute(p + t, matched, "", after) == p + JsSubstitute(t, matched, "", after)
    decreases |p|
  {
    if |p| > 0 {
      assert (p + t)[0] == p[0];
      assert (p + t)[1..] == p[1..] + t;
      SubstituteLiteralPrefix(p[1..], t, matched, after);
      assert p == [p[0]] + p[1..];
    } else {
      assert p + t == t;
    }
  }
}

=== FILE: text.dfy ===
/** Character-sequence helpers with the semantics of the JavaScript string
    operations the plugin relies on: `endsWith`, `includes`, `indexOf`,
    `replace` with a string pattern (including the `$` patterns of its
    replacement argument), a global single-character replace, and a
    separator join standing in for `path.join`. */
module Text {

  datatype Option<+T> = None | Some(value: T)

  datatype Result<+T, +E> = Ok(value: T) | Err(error: E)

  /** `pat` occurs in `s` starting at index `i`. */
  predicate OccursAt(s: string, pat: string, i: nat) {
    i + |pat| <= |s| && s[i..i + |pat|] == pat
  }

  /** `s.includes(pat)`. */
  predicate Contains(s: string, pat: string) {
    exists i: nat | i <= |s| :: OccursAt(s, pat, i)
  }

  /** `s.endsWith(suffix)`. */
  predicate EndsWith(s: string, suffix: string) {
    |suffix| <= |s| && s[|s| - |suffix|..] == suffix
  }

  /** `i` is the least index at which `pat` occurs in `s`. */
  predicate IsFirstOccurrence(s: string, pat: string, i: nat) {
    OccursAt(s, pat, i) && forall j: nat | j < i :: !OccursAt(s, pat, j)
  }

  /** The least index `>= k` at which `pat` occurs in `s`. */
  function IndexFrom(s: string, pat: string, k: nat): (r: Option<nat>)
    ensures r.Some? ==> k <= r.value && OccursAt(s, pat, r.value)
    ensures r.Some? ==> forall j: nat | k <= j < r.value :: !OccursAt(s, pat, j)
    ensures r.None? ==> forall j: nat | k <= j :: !OccursAt(s, pat, j)
    decreases |s| - k
  {
    if |s| < k + |pat| then None
    else if OccursAt(s, pat, k) then Some(k)
    else IndexFrom(s, pat, k + 1)
  }

  /** `s.indexOf(pat)`, with `None` for JavaScript's -1. */
  function IndexOf(s: string, pat: string): (r: Option<nat>)
    ensures r.Some? ==> IsFirstOccurrence(s, pat, r.value)
    ensures r.None? <==> !Contains(s, pat)
  {
    IndexFrom(s, pat, 0)
  }

  /** The least index `>= k` holding `ch`. */
  function NextChar(s: string, ch: char, k: nat): (r: Option<nat>)
    ensures r.Some? ==> k <= r.value < |s| && s[r.value] == ch
    ensures r.Some? ==> forall j | k <= j < r.value :: s[j] != ch
    ensures r.None? ==> forall j | k <= j < |s| :: s[j] != ch
    decreases |s| - k
  {
    if |s| <= k then None
    else if s[k] == ch then Some(k)
    else NextChar(s, ch, k + 1)
  }

  /** Replaces the first occurrence of `pat` by the text `repl`, taken
      literally. */
  function ReplaceFirst(s: string, pat: string, repl: string): (r: string)
    ensures !Contains(s, pat) ==> r == s
    ensures forall i: nat | IsFirstOccurrence(s, pat, i) ::
              r == s[..i] + repl + s[i + |pat|..]
  {
    match IndexOf(s, pat)
    case None => s
    case Some(i) =>
      assert forall j: nat | IsFirstOccurrence(s, pat, j) :: j == i;
      s[..i] + repl + s[i + |pat|..]
  }

  /** The replacement text JavaScript builds from a replacement template when
      the pattern is a string (ECMAScript GetSubstitution with no capture
      groups): `$$` stands for `$`, `$&` for the matched text, `` $` `` for the
      text before the match, `$'` for the text after it; every other `$`
      is literal. */
  function JsSubstitute(template: string, matched: string, before: string, after: string): string
    decreases |template|
  {
    if |template| == 0 then ""
    else if template[0] == '$' && 2 <= |template| && template[1] == '$' then
      "$" + JsSubstitute(template[2..], matched, before, after)
    else if template[0] == '$' && 2 <= |template| && template[1] == '&' then
      matched + JsSubstitute(template[2..], matched, before, after)
    else if template[0] == '$' && 2 <= |template| && template[1] == '`' then
      before + JsSubstitute(template[2..], matched, before, after)
    else if template[0] == '$' && 2 <= |template| && template[1] == '\'' then
      after + JsSubstitute(template[2..], matched, before, after)
    else
      [template[0]] + JsSubstitute(template[1..], matched, before, after)
  }

  /** A template without `$` is taken literally. */
  lemma {:induction false} SubstituteLiteral(template: string, matched: string, before: string, after: string)
    requires '$' !in template
    ensures JsSubstitute(template, matched, before, after) == template
    decreases |template|
  {
    if |template| > 0 {
      assert template[0] != '$';
      assert '$' !in template[1..];
      SubstituteLiteral(template[1..], matched, before, after);
      assert template == [template[0]] + template[1..];
    }
  }

  /** `s.replace(pat, template)` with a string `pat`: only the first
      occurrence is replaced, and the template's `$` patterns are expanded. */
  function JsReplaceFirst(s: string, pat: string, template: string): string {
    match IndexOf(s, pat)
    case None => s
    case Some(i) =>
      s[..i] + JsSubstitute(template, pat, s[..i], s[i + |pat|..]) + s[i + |pat|..]
  }

  /** With no `$` in the template, JavaScript's replace is the literal
      first-occurrence replacement. */
  lemma JsReplaceLiteral(s: string, pat: string, template: string)
    requires '$' !in template
    ensures JsReplaceFirst(s, pat, template) == ReplaceFirst(s, pat, template)
  {
    match IndexOf(s, pat)
    case None =>
    case Some(i) =>
      var before, after := s[..i], s[i + |pat|..];
      calc {
        JsReplaceFirst(s, pat, template);
        before + JsSubstitute(template, pat, before, after) + after;
        { SubstituteLiteral(template, pat, before, after); }
        before + template + after;
        ReplaceFirst(s, pat, template);
      }
  }

  /** JavaScript's replace at the first occurrence `i`: the text before, the
      expanded template, the text after. */
  lemma JsReplaceAt(s: string, pat: string, template: string, i: nat)
    requires IsFirstOccurrence(s, pat, i)
    ensures JsReplaceFirst(s, pat, template)
         == s[..i] + JsSubstitute(template, pat, s[..i], s[i + |pat|..]) + s[i + |pat|..]
  {
    assert IndexOf(s, pat) == Some(i);
  }

  /** `s.replace(/<from>/g, to)` for a single character. */
  function ReplaceAllChar(s: string, from: char, to: char): (r: string)
    ensures |r| == |s|
    ensures forall i | 0 <= i < |s| :: r[i] == (if s[i] == from then to else s[i])
  {
    if |s| == 0 then []
    else [if s[0] == from then to else s[0]] + ReplaceAllChar(s[1..], from, to)
  }

  /** Path segments joined by a separator: the model of `path.join`. */
  function Join(segments: seq<string>, sep: char): string
    decreases |segments|
  {
    if |segments| == 0 then ""
    else if |segments| == 1 then segments[0]
    else segments[0] + [sep] + Join(segments[1..], sep)
  }

  /** An occurrence found in a suffix is an occurrence in the whole. */
  lemma ContainsInSuffix(s: string, k: nat, pat: string)
    requires k <= |s|
    ensures Contains(s[k..], pat) ==> Contains(s, pat)
  {
    if Contains(s[k..], pat) {
      var i: nat :| i <= |s[k..]| && OccursAt(s[k..], pat, i);
      assert s[k..][i..i + |pat|] == s[k + i..k + i + |pat|];
      assert OccursAt(s, pat, k + i);
    }
  }

  /** An occurrence found in a prefix is an occurrence in the whole. */
  lemma ContainsInPrefix(s: string, t: string, pat: string)
    requires Contains(s, pat)
    ensures Contains(s + t, pat)
  {
    var i: nat :| i <= |s| && OccursAt(s, pat, i);
    assert (s + t)[i..i + |pat|] == s[i..i + |pat|];
    assert OccursAt(s + t, pat, i);
  }

  /** Every character an occurrence covers belongs to the pattern. */
  lemma CoveredChars(s: string, pat: string, i: nat)
    requires OccursAt(s, pat, i)
    ensures forall k | i <= k < i + |pat| :: s[k] in pat
  {
    forall k | i <= k < i + |pat| ensures s[k] in pat {
      assert s[k] == s[i..i + |pat|][k - i];
    }
  }

  /** An occurrence in `a + [c] + b` that cannot cover the character `c`
      lies wholly in `a` or wholly in `b`. */
  lemma ContainsAroundSeparator(a: string, c: char, b: string, pat: string)
    requires c !in pat
    requires Contains(a + [c] + b, pat)
    ensures Contains(a, pat) || Contains(b, pat)
  {
    var s := a + [c] + b;
    var i: nat :| i <= |s| && OccursAt(s, pat, i);
    CoveredChars(s, pat, i);
    assert s[|a|] == c;
    if i + |pat| <= |a| {
      assert s[i..i + |pat|] == a[i..i + |pat|];
      assert OccursAt(a, pat, i);
    } else {
      var j := i - |a| - 1;
      assert s[i..i + |pat|] == b[j..j + |pat|];
      assert OccursAt(b, pat, j);
    }
  }

  /** A suffix that cannot contain the separator ends the last segment. */
  lemma EndsWithAroundSeparator(a: string, c: char, b: string, suffix: string)
    requires c !in suffix
    ensures EndsWith(a + [c] + b, suffix) <==> EndsWith(b, suffix)
  {
    var s := a + [c] + b;
    if EndsWith(s, suffix) {
      assert OccursAt(s, suffix, |s| - |suffix|);
      CoveredChars(s, suffix, |s| - |suffix|);
      assert s[|a|] == c;
      assert s[|s| - |suffix|..] == b[|b| - |suffix|..];
    }
    if EndsWith(b, suffix) {
      assert s[|s| - |suffix|..] == b[|b| - |suffix|..];
    }
  }

  /** The join of at least two segments, split after the first. */
  lemma JoinCons(segments: seq<string>, sep: char)
    requires 2 <= |segments|
    ensures Join(segments, sep) == segments[0] + [sep] + Join(segments[1..], sep)
  {
  }

  /** The join of at least two segments, split before the last. */
  lemma {:induction false} JoinSnoc(segments: seq<string>, sep: char)
    requires 2 <= |segments|
    ensures Join(segments, sep)
         == Join(segments[..|segments| - 1], sep) + [sep] + segments[|segments| - 1]
    decreases |segments|
  {
    var n := |segments|;
    if n == 2 {
      assert segments[..1] == [segments[0]];
    } else {
      JoinSnoc(segments[1..], sep);
      assert segments[1..][..n - 2] == segments[..n - 1][1..];
      assert segments[..n - 1][0] == segments[0];
    }
  }

  /** A pattern whose first character does not occur in `s[k..n]` does not
      start anywhere in `k..n`. */
  lemma NoOccurrenceIn(s: string, pat: string, k: nat, n: nat)
    requires 0 < |pat| && k <= n <= |s|
    requires pat[0] !in s[k..n]
    ensures forall i: nat | k <= i < n :: !OccursAt(s, pat, i)
  {
    forall i: nat | k <= i < n
      ensures !OccursAt(s, pat, i)
    {
      if i + |pat| <= |s| {
        assert s[i] == s[k..n][i - k];
        assert s[i..i + |pat|][0] == s[i];
      }
    }
  }

  lemma NoOccurrenceFrom(s: string, pat: string, k: nat)
    requires 0 < |pat| && k <= |s|
    requires pat[0] !in s[k..]
    ensures forall i: nat | k <= i :: !OccursAt(s, pat, i)
  {
    assert s[k..] == s[k..|s|];
    NoOccurrenceIn(s, pat, k, |s|);
  }

  /** A pattern whose first character does not recur in it, appended to text
      that does not contain it, first occurs at the join. */
  lemma FirstOccurrenceAtEnd(a: string, pat: string)
    requires 0 < |pat| && pat[0] !in pat[1..]
    requires !Contains(a, pat)
    ensures IsFirstOccurrence(a + pat, pat, |a|)
  {
    var s := a + pat;
    assert s[|a|..] == pat;
    forall j: nat | j < |a|
      ensures !OccursAt(s, pat, j)
    {
      if j + |pat| <= |a| {
        assert !OccursAt(a, pat, j);
        assert s[j..j + |pat|] == a[j..j + |pat|];
      } else {
        var d := |a| - j;
        assert s[|a|] == pat[0];
        assert pat[d] == pat[1..][d - 1];
        assert pat[d] != pat[0];
        assert s[j..j + |pat|][d] == s[|a|];
      }
    }
  }

  /** A pattern that cannot hold the separator occurs in a join exactly when
      it occurs in one of the segments. */
  lemma {:induction false} ContainsJoin(segments: seq<string>, sep: char, pat: string)
    requires 0 < |pat| && sep !in pat
    ensures Contains(Join(segments, sep), pat)
        <==> exists i | 0 <= i < |segments| :: Contains(segments[i], pat)
    decreases |segments|
  {
    if |segments| == 0 {
      assert !OccursAt(Join(segments, sep), pat, 0);
    } else if |segments| == 1 {
      assert Join(segments, sep) == segments[0];
    } else {
      var rest := segments[1..];
      ContainsJoin(rest, sep, pat);
      JoinCons(segments, sep);
      ContainsAcrossSeparator(segments[0], sep, Join(rest, sep), pat);
      SomeSegmentCons(segments, pat);
    }
  }

  /** An occurrence that cannot cover `c` is in `a + [c] + b` exactly when
      it is in `a` or in `b`. */
  lemma ContainsAcrossSeparator(a: string, c: char, b: string, pat: string)
    requires c !in pat
    ensures Contains(a + [c] + b, pat) <==> Contains(a, pat) || Contains(b, pat)
  {
    var s := a + [c] + b;
    if Contains(s, pat) {
      ContainsAroundSeparator(a, c, b, pat);
    }
    if Contains(a, pat) {
      ContainsInPrefix(a, [c] + b, pat);
      assert a + ([c] + b) == s;
    }
    ContainsInSuffix(s, |a| + 1, pat);
    assert s[|a| + 1..] == b;
  }

  /** Some segment contains `pat` exactly when the first one does or some
      later one does. */
  lemma SomeSegmentCons(segments: seq<string>, pat: string)
    requires 0 < |segments|
    ensures (exists i | 0 <= i < |segments| :: Contains(segments[i], pat))
        <==> Contains(segments[0], pat)
             || exists i | 0 <= i < |segments[1..]| :: Contains(segments[1..][i], pat)
  {
    var rest := segments[1..];
    if exists i | 0 <= i < |segments| :: Contains(segments[i], pat) {
      var i :| 0 <= i < |segments| && Contains(segments[i], pat);
      if i > 0 {
        assert rest[i - 1] == segments[i];
      }
    }
    if exists i | 0 <= i < |rest| :: Contains(rest[i], pat) {
      var i :| 0 <= i < |rest| && Contains(rest[i], pat);
      assert segments[i + 1] == rest[i];
    }
  }

  /** A suffix that cannot hold the separator ends a join exactly when it
      ends the last segment. */
  lemma EndsWithJoin(segments: seq<string>, sep: char, suffix: string)
    requires 0 < |segments| && sep !in suffix
    ensures EndsWith(Join(segments, sep), suffix) <==> EndsWith(segments[|segments| - 1], suffix)
  {
    if |segments| >= 2 {
      JoinSnoc(segments, sep);
      EndsWithAroundSeparator(Join(segments[..|segments| - 1], sep), sep, segments[|segments| - 1], suffix);
    }
  }
}

=== FILE: watcher.dfy ===
/** The dev-server reaction to file changes (index.ts lines 83-92): a
    changed path triggers a new pass when it ends in `.svg` and is not the
    generated sprite. */
module Watcher {
  import opened Text
  import IconIds
  import Scanner
  import Sprite

  /** The filter of line 88: only a change to an `.svg` file triggers, and
      never one to a file named like the sprite. */
  function ShouldRegenerate(changedPath: string): (r: bool)
    ensures r ==> EndsWith(changedPath, IconIds.SvgExtension)
    ensures EndsWith(changedPath, Sprite.SpriteFileName) ==> !r
  {
    var n := Sprite.SpriteFileName;
    assert EndsWith(changedPath, n) ==> Contains(changedPath, n) by {
      if EndsWith(changedPath, n) {
        assert OccursAt(changedPath, n, |changedPath| - |n|);
      }
    }
    EndsWith(changedPath, IconIds.SvgExtension) && !Contains(changedPath, n)
  }

  /** The sprite the pass writes never triggers another pass. */
  lemma SpriteWriteIgnored(outputPath: string, sep: char)
    ensures !ShouldRegenerate(Join([outputPath, Sprite.SpriteFileName], sep))
  {
    var p := Join([outputPath, Sprite.SpriteFileName], sep);
    JoinCons([outputPath, Sprite.SpriteFileName], sep);
    assert [outputPath, Sprite.SpriteFileName][1..] == [Sprite.SpriteFileName];
    assert p == outputPath + [sep] + Sprite.SpriteFileName;
    assert OccursAt(p, Sprite.SpriteFileName, |outputPath| + 1) by {
      assert p[|outputPath| + 1..] == Sprite.SpriteFileName;
    }
  }

  /** Any file whose name merely contains the sprite's name is ignored as
      well, such as `my-icon-sprite.svg`. */
  lemma LookalikeIgnored(p: string)
    requires p == "src/icons/my-icon-sprite.svg"
    ensures !ShouldRegenerate(p)
  {
    assert p[13..] == Sprite.SpriteFileName;
    assert OccursAt(p, Sprite.SpriteFileName, 13);
  }

  /** For a path made of segments joined by a separator that occurs in
      neither name, the filter reads: the last segment ends in `.svg` and no
      segment contains `icon-sprite.svg`. */
  lemma RegenerateOnSegments(segments: seq<string>, sep: char)
    requires 0 < |segments|
    requires sep !in IconIds.SvgExtension && sep !in Sprite.SpriteFileName
    ensures ShouldRegenerate(Join(segments, sep))
        <==> EndsWith(segments[|segments| - 1], IconIds.SvgExtension)
             && forall i | 0 <= i < |segments| :: !Contains(segments[i], Sprite.SpriteFileName)
  {
    EndsWithJoin(segments, sep, IconIds.SvgExtension);
    ContainsJoin(segments, sep, Sprite.SpriteFileName);
  }

  /** A change to any icon the scan finds triggers a pass, unless its path
      contains the sprite's name. */
  lemma IconChangesRegenerate(listing: seq<Scanner.Entry>, place: Scanner.Place)
    requires place.sep !in IconIds.SvgExtension
    ensures forall f | f in Scanner.ScanRoot(listing, place) ::
              ShouldRegenerate(f.filePath) <==> !Contains(f.filePath, Sprite.SpriteFileName)
  {
    Scanner.RecordsAreIcons(listing, place);
  }
}
